=== FILE: README.md ===
# cc-init deployment engine in Dafny

This project models the core of `cc-init`. That tool copies an embedded
`.claude` template tree into a target project directory. It creates what is
missing, skips what already exists, and reports what it did. The model covers
five parts:

- **Template manager** (`template.go`). It walks the embedded, read-only asset
  tree with `fs.WalkDir`, strips the `.claude/` prefix from every path it
  reports, and never reports the root itself. It also reads a template's
  bytes, says whether the tree has any templates, lists the template files,
  and chooses the default modes: 0755 for directories and for `.sh`/`.bash`
  files, 0644 for everything else.
- **Filesystem port** (`fs.go`). The host filesystem is a map from paths to
  nodes. The real implementation has an `Exists`/`Stat` pair, a `CreateDir`
  that rejects a file in the way and otherwise runs `MkdirAll`, and a
  `CreateFile` that rejects a directory in the way, creates the parent and
  writes. The dry-run implementation does the same kind checks on the target
  path only and returns a "would create / would skip" notice instead of
  mutating anything.
- **Deployment engine** (`engine.go`). `Run` checks that templates exist, then
  folds the walk through `processDirectory` and `processFile`. Walk-access
  errors are recorded and the walk goes on. An error returned by
  `processDirectory` or `processFile` stops the walk. `Run` then returns
  "failed to process templates" and prints no summary. A walk that reaches
  its end prints the summary and returns nil, or "completed with N errors".
- **Summary** (`showSummary`, `pluralize`). These are the lines the run prints
  at its end and their exact text.
- **Scenarios** (`scenario.dfy`). A concrete tree of three templates
  (`commands/`, `commands/ask.md`, `settings.json`) run against a fresh
  project, against a project that already holds the result, and against a
  project where a directory sits where `settings.json` should go. It is also
  run in dry-run mode against a fresh project and against one where a file
  blocks `.claude`.

The modules follow the source files. `Common` holds `Option`, `Result`, bytes
and the error kinds. `Text` has the string helpers the source takes from Go's
standard library. `Assets` models `embed.FS` and `fs.WalkDir`. `Templates`
models `template.go` and `FileSystem` models `fs.go`. `Summary` covers the
reporting half of `engine.go` and `Engine` the rest. `Scenario` holds the
worked examples.

Paths on the host are sequences of segments (`[]` is `/`). A node is a
directory or a file with content and mode. A host is `Valid` when the root is
a directory and every node's parent is a directory. `Extends(h, h')` says
that every node of `h` is still in `h'`, unchanged. The engine proves this
for every run: existing files and directories are never modified.

### Behaviour worth knowing

- **The walk stops at the first entry error.** `processDirectory` and
  `processFile` append an error to the statistics and also return it. The
  callback hands it back to `fs.WalkDir` (engine.go:80, 83), which stops the
  walk. `Run` then returns "failed to process templates" and prints no
  summary (engine.go:86-88). Only a walk-access error is recorded and the
  walk continues (engine.go:70-74). `Engine.Deploy` states it: a walk that
  stops does so at the first entry whose callback fails, with every event
  before it handled and none after. `Engine.Run` carries this into its
  "failed to process templates" result. `Scenario.BlockedParentStopsRun`
  shows it on a concrete host, where a file named `.claude` blocks all three
  entries but only the first error is recorded.
- **Targets are not checked for containment.** The target is the
  `filepath.Join` of the target directory, `.claude` and the walked path
  (engine.go:77), with no check that the result stays inside the target.
  `Engine.TargetsStayInside` shows that it does anyway when the embedded tree
  has well-formed names, which `embed.FS` guarantees.
- **The dry-run port checks only the target path itself** (fs.go:106-137). A
  real `CreateDir`/`CreateFile` can still fail on a file that blocks an
  ancestor. `FileSystem.DryRunIgnoresParent`, `Scenario.BlockedParentStopsRun`
  and `Scenario.RehearsalMissesBlockedParent` show a host where a real run
  stops at once and a dry run reports full success.
- **The dry-run port can fail.** It returns the same kind-conflict errors as
  the real port (fs.go:112-114, 129-131).

## Model

| member | source | states |
|---|---|---|
| Text.TrimPrefix | template.go:38 | when the prefix is present, prefix + result gives back the input; otherwise the input is returned unchanged |
| Text.TrimPrefixOfConcat | template.go:38 | trimming a prefix that was prepended returns the original suffix |
| Text.HasSuffixOfConcat | template.go:110 | any string ending in a suffix is recognised as having it |
| Text.SplitPath | engine.go:77 | splitting a slash path gives at least one segment, and no segment contains a slash |
| Text.JoinSplit | engine.go:77 | joining the segments of a path with "/" gives the path back |
| Text.SplitJoin | engine.go:77 | splitting the "/"-join of slash-free segments gives the segments back |
| Text.SplitConcat | engine.go:77 | splitting `a/b` gives the segments of `a` followed by those of `b` |
| Text.SplitPlain | engine.go:77 | a name without a slash is a path of one segment |
| Text.NatToString | engine.go:204 | the decimal text of a count is non-empty, all digits, with no leading zero |
| Text.ParseFormat | engine.go:226 | reading the printed decimal count back gives the count |
| Assets.Find | template.go:27 | a found sibling is in the listing and has the name asked for; a miss means no sibling has it |
| Assets.ReadDir | template.go:77-81 | listing succeeds exactly when the path reaches a readable directory, and returns its children |
| Assets.WalkDir | template.go:27 | a missing root is reported once, as a not-exist error at the root path; otherwise the walk starts by visiting the root at its own path |
| Assets.LookupThrough | template.go:27 | a path that reaches an entry past a shorter path passes through a directory at the shorter one |
| Assets.WalkForestComplete | template.go:27 | the walk over a directory's children visits every entry found below them, at the path that leads to it |
| Assets.WalkDirComplete | template.go:27 | every file and directory below the walk's root is visited, at `root/` followed by its segments |
| Assets.LookupSkipHead | template.go:27 | with unique sibling names, an entry found among the later siblings is found the same way from the whole listing |
| Assets.LookupAppend | template.go:27 | looking up a longer path continues from the directory the shorter one reaches |
| Assets.LookupNames | template.go:27 | every segment of a path that reaches an entry in a well-formed tree is a valid name |
| Assets.WalkFromReaches | template.go:27 | every entry the walk visits is the start or is found again by looking up the path the walk reports for it |
| Assets.WalkForestLocated | template.go:27 | every entry visited below a directory is reported at a path strictly below it that leads back to that entry |
| Templates.Walk | template.go:26-45 | the walk errors the callback receives are exactly those `fs.WalkDir` reported, at their own paths; every visit other than the root reaches the callback as an entry with `prefix/` stripped |
| Templates.WalkComplete | template.go:26-45 | every file and directory below the prefix reaches the callback as an entry, at its path relative to the prefix |
| Templates.RelayKeepsFaults | template.go:28-30 | relaying a raw walk passes on only the errors it contains |
| Templates.RelayKeepsAll | template.go:26-45 | relaying a raw walk passes on every error it contains, at its unstripped path, and every visit other than the root, with `prefix/` stripped |
| Templates.WalkWithoutRootDir | template.go:26-45 | a missing prefix gives one not-exist error, a prefix that is a file gives nothing, and an unreadable prefix directory gives one listing error |
| Templates.Relay | template.go:27-45 | errors reach the callback with their unstripped path, the root is dropped, and other visits reach it with the `prefix/` stripped |
| Templates.RelayAllConcat | template.go:27-45 | relaying two walk segments one after the other is relaying their concatenation |
| Templates.JoinSlash | template.go:50 | joining with an empty side gives the other side; two non-empty sides are joined by one slash |
| Templates.JoinSlashParts | template.go:50 | stripping `a/` from the join of `a` and `b` gives `b`, and the join's segments are those of `a` then those of `b` |
| Templates.ReadFile | template.go:48-56 | reading succeeds exactly when `prefix/rel` is a file of the tree, and then returns that file's bytes; otherwise it fails naming the full path |
| Templates.HasTemplates | template.go:76-82 | true exactly when the prefix directory can be listed and its listing is non-empty |
| Templates.HasTemplatesIffEntries | template.go:76-82 | the tree has templates exactly when the walk reports at least one entry |
| Templates.WalkReportsFaithfully | template.go:26-56 | for a well-formed tree, every entry the walk reports lies at `prefix/rel`, and a reported file reads back as its own bytes |
| Templates.NoEntriesWithoutRootDir | template.go:26-45 | when the prefix is not a readable directory, the walk reports no entries |
| Templates.RootChildrenWellFormed | template.go:27 | the children of any directory in a well-formed tree are well-formed |
| Templates.RelayAllLocated | template.go:26-56 | every relayed visit located under the prefix is reported faithfully |
| Templates.EntryReportedFaithfully | template.go:33-44 | a visit located under the prefix is never the root and is reported at a path that reads back as the visited entry |
| Templates.CollectFiles | template.go:88-98 | collection succeeds exactly when the walk reports no error, then returns the file paths in walk order; otherwise it fails with the first error |
| Templates.ListTemplates | template.go:85-105 | the file paths of the walk in order, or the first walk error wrapped as a listing failure |
| Templates.GetDefaultFileMode | template.go:108-116 | the mode is 0755 exactly for `.sh` and `.bash` paths, 0644 for everything else |
| Templates.ScriptsAreExecutable | template.go:108-116 | shell scripts are executable; markdown and JSON templates are not |
| Templates.GetDefaultDirMode | template.go:119-121 | directories are created with mode 0755 |
| FileSystem.Stat | fs.go:82-84 | stat succeeds exactly when the path exists and reports its kind and mode |
| FileSystem.Exists | fs.go:31-34 | a path exists exactly when stat succeeds on it |
| FileSystem.MkdirAll | fs.go:49 | on success the path is a directory, nothing that existed changed, and every new node is a directory of the given mode on the way to the path; on failure a file is found on the way |
| FileSystem.MkdirAllFailsIff | fs.go:49 | on a valid host, creating a directory chain fails exactly when a file lies at the path or at one of its ancestors |
| FileSystem.MkdirAllValid | fs.go:49 | a successful directory chain keeps the host a valid tree |
| FileSystem.WriteFile | fs.go:73 | a successful write sets exactly that path to a file with the content, with the mode when the file is new |
| FileSystem.OsCreateDir | fs.go:37-50 | an existing directory is kept, an existing file is a not-a-directory error, and otherwise the directory chain is created without touching existing nodes |
| FileSystem.OsCreateDirFailsIff | fs.go:37-50 | on a valid host, creation fails exactly when a file lies at the path or above it, and success keeps the host valid |
| FileSystem.OsCreateFile | fs.go:53-74 | an existing directory is an is-a-directory error, an existing file is kept, and otherwise the parent chain is created and a new file with the given content and mode appears |
| FileSystem.OsCreateFileFailsIff | fs.go:53-74 | on a valid host, creation fails exactly when the target is a directory, or it is absent and a file blocks its parent; success keeps the host valid |
| FileSystem.DryRunCreateDir | fs.go:106-120 | it fails exactly when a file sits at the target; otherwise it returns a would-skip or would-create notice |
| FileSystem.DryRunCreateFile | fs.go:123-137 | it fails exactly when a directory sits at the target; otherwise it returns a would-skip or would-create notice with the size |
| FileSystem.CreateDir | fs.go:11-17 | either port keeps existing nodes; the dry-run port changes nothing; a real success leaves a directory at the path |
| FileSystem.CreateFile | fs.go:11-17 | either port keeps existing nodes; the dry-run port changes nothing; a real success leaves a file at the path, with the content when it was new |
| FileSystem.KindChecksAgree | fs.go:37-64 | on an existing path the real and dry-run ports give the same answer |
| FileSystem.DryRunIgnoresParent | fs.go:123-137 | a file that blocks the parent makes the real file creation fail, while the dry-run creation succeeds |
| FileSystem.ValidAncestors | fs.go:66-70 | in a valid host every ancestor of an existing node is a directory |
| Summary.Render | engine.go:196-238 | only the error tally is logged at error level, only the created line and the success line at success level; a created line reads "Created " then its one item or its two items joined by " and ", a skipped line the same with "Skipped " and " (already exist)" after; the error line gives the decimal count and "error" pluralized |
| Summary.JoinTwo | engine.go:209 | joining one item gives the item, and joining two glues them with the separator |
| Summary.ErrorLineCount | engine.go:226 | the number in the error line reads back as the error count, and the word after it is "errors" exactly when the count is not one |
| Summary.Pluralize | engine.go:243-255 | the word is kept exactly for a count of one; otherwise "directory" becomes "directories" and other words take an "s" |
| Summary.Items | engine.go:202-208 | only the non-zero counts are listed, the file count before the directory count |
| Summary.TallyLines | engine.go:201-232 | the created line, the skipped line and the error line each appear exactly when their count is non-zero, with the counts it lists; no other line appears, and they come in that order |
| Summary.StatusLine | engine.go:235-239 | "already exist" appears exactly when nothing was created and something was skipped, and "initialized successfully" exactly when that is not so and there were no errors |
| Summary.ShowSummary | engine.go:189-240 | the dry-run banner, the created, skipped and error lines each appear exactly under their condition, and at least one line is printed; no other line appears, and they come in the order banner, created, skipped, errors, final status |
| Summary.SummaryStatus | engine.go:234-239 | the closing line of the whole summary follows the already-exist / success rule |
| Summary.TwoFilesOneDirectory | engine.go:202-208 | two files and one directory are listed as "2 files" and "1 directory" |
| Summary.TallyText | engine.go:209-221 | the tally text reads "Created 2 files and 1 directory" and "Skipped 2 files and 1 directory (already exist)" |
| Summary.FirstAndSecondRun | engine.go:189-240 | the summary lines of a first run, a repeated run and a dry run |
| Summary.OneErrorText | engine.go:226 | one error is reported as "Encountered 1 error during initialization" |
| Engine.NewEngine | engine.go:31-47 | the engine uses the dry-run port exactly when dry-run is configured, and templates come from `.claude` |
| Engine.Target | engine.go:77 | the target starts with the target directory followed by `.claude`, and lies strictly below it |
| Engine.TargetRejoins | engine.go:77 | the target's segments below `.claude`, joined with "/", give back the walked path |
| Engine.ProcessDirectory | engine.go:102-132 | an existing directory is skipped; an existing file stops the walk with a recorded error; an absent one is created with the default directory mode (real) or counted as created (dry run); nothing existing changes, and every new node lies on the way to the target |
| Engine.ProcessFile | engine.go:135-177 | an existing file is skipped; an existing directory or a failed read stops the walk with a recorded error; an absent file is written with the template bytes and the default mode; nothing existing changes, and every new node lies on the way to the target |
| Engine.Handle | engine.go:70-84 | a walk error is recorded and the walk goes on; an entry error stops it with that error last and the host untouched; an entry that goes on is counted once, as created or as skipped; new nodes lie only on the way to the entry's target |
| Engine.HandleSkipsPlaced | engine.go:104-153 | an entry whose target already holds the right kind is counted as skipped and nothing changes |
| Engine.HandlePlaces | engine.go:102-177 | a real run that goes on past an entry leaves the right kind at its target |
| Engine.Deploy | engine.go:70-88 | a walk that reaches its end counts each file and each directory once, as created or as skipped, and records exactly the walk errors; a stopped walk records the stopping error last, and stopped at the first entry whose step failed, after every earlier event went on and with nothing after it handled; dry runs change nothing; every new node lies on the way to the target of some walked entry |
| Engine.Run | engine.go:50-99 | no templates means an error and nothing done; a summary is printed exactly when the walk completed, and it is the summary of the final counts; nil is returned exactly when it completed without errors, and "completed with N errors" carries the number recorded; a completed run's counts cover every entry; a failed walk returns its last recorded error, which is the failed step of the first entry that failed, after every earlier event went on; new nodes lie only on the way to walked targets |
| Engine.DeployPlacesEntries | engine.go:70-84 | a real walk that completes leaves every entry it met in place with the right kind |
| Engine.DeploySkipsPlaced | engine.go:117-119 | a walk over entries already in place skips them all and changes nothing |
| Engine.RunIdempotent | engine.go:50-177 | a second real run after a completed one creates nothing, skips everything, leaves the host as it was and returns the same result |
| Engine.HandleKeepsValid | engine.go:102-177 | handling an entry keeps the host a valid tree |
| Engine.DeployKeepsValid | engine.go:70-84 | a walk keeps the host a valid tree |
| Engine.RunKeepsValid | engine.go:50-99 | a run keeps the host a valid tree |
| Engine.HandleStopsIff | engine.go:102-177 | on a valid host, a real run stops at an entry exactly when a wrong kind is at its target, a file blocks its creation, or its template cannot be read |
| Engine.DryRunStopsIff | engine.go:102-177 | a dry run stops at an entry exactly when a wrong kind is at its target, or an absent file's template cannot be read |
| Engine.TargetsStayInside | engine.go:77 | for a well-formed tree, every target lies strictly below `<target>/.claude`, and each segment below it is a valid name |
| Scenario.ScenarioWalk | template.go:26-45 | the example tree is walked as `commands`, `commands/ask.md`, `settings.json` |
| Scenario.FirstRun | engine.go:50-99 | a fresh project gets both files and the directory; the run reports two files and one directory created and succeeds |
| Scenario.SecondRun | engine.go:50-99 | rerunning on the result changes nothing; it reports everything skipped and "already exist" |
| Scenario.ThirdRun | engine.go:70-88 | a directory where `settings.json` should go stops the walk; the earlier entries are created, the error is recorded, and there is no summary |
| Scenario.RehearseFirstRun | engine.go:50-99 | a dry run on a fresh project leaves it untouched and reports what a real run would create, under the banner |
| Scenario.BlockedParentStopsRun | fs.go:37-50 | a file named `.claude` makes the real run fail at its first entry, with nothing created |
| Scenario.RehearsalMissesBlockedParent | fs.go:106-137 | on the same host the dry run reports full success |

## Left out

- The `Exists`-then-`Stat` race branches (engine.go:106-109, 139-142; fs.go:40-43, 56-59, 108-111, 125-128): the host is a map, so `Stat` cannot fail right after `Exists` succeeded.
- `OSFileSystem.Walk` and `DryRunFileSystem.Walk` (fs.go:77-79, 140-142): these only delegate to `filepath.Walk`, and the engine never calls them; it walks the embedded tree.
- `GetFileInfo` (template.go:59-73) and `formatPath` (engine.go:180-186): no modelled operation depends on them; `formatPath` only shapes log text.
- Logging: debug, success and skip messages, colours, blank lines, and the verbose template and error listings (engine.go:59-67, 227-231) are output only. The dry-run notices are returned as `Notice` values but not printed.
- Error messages are error constructors, not formatted text; `%w` wrapping becomes a constructor that holds its cause.
- `cli.go`, `main.go` and `logger.go`: argument parsing, configuration and terminal output lie outside the engine.
- Storage failures: permissions, umask, full disks and partial writes. The only failures the host produces are a wrong kind at a path or a file in the way.
- Lexical cleaning by `filepath.Join`/`path.Join`: targets are segment sequences. For a well-formed tree no cleaning applies (`Engine.TargetsStayInside`); trees with `.` or `..` names are not models of `embed.FS`.
- `embed.FS` listing order: the children sequence of a directory is taken as its listing order; the sorting by name is not modelled.
- Counters are unbounded naturals; Go's `int` cannot overflow at these sizes.
- Templates.WalkReportsFaithfully: requires a well-formed tree (valid, unique names), which `embed.FS` always provides.
- Engine.TargetsStayInside: requires a well-formed tree for the same reason.
- Engine.Run: models one `Run` of a freshly built engine, as main.go:36-37 makes it. In Go the counts live in the engine (engine.go:18, 45) and a second `Run` on the same engine would add to them; the program never calls `Run` twice. `Engine.RunIdempotent`'s second run is a new invocation of the program.
- Engine.RunIdempotent: stated for the real port only; a dry run changes nothing, so its second run repeats the first.
- Engine.HandleStopsIff: requires a valid host (every parent a directory), which any real filesystem is.

=== FILE: assets.dfy ===
/** The embedded, read-only asset tree (Go's embed.FS) and the order in which
    fs.WalkDir visits it: the entry itself first, then each child in listing
    order, depth first. Only the behaviour the template manager relies on is
    modelled: finding an entry by its slash-separated path, listing a
    directory, and the sequence of callback invocations of a walk. */
module Assets {
  import opened Common
  import opened Text

  /** One entry of the embedded tree. A directory whose listing cannot be
      read is kept apart: fs.WalkDir reports it once normally and once more
      with the listing error. */
  datatype Asset =
    | AFile(name: string, content: Bytes)
    | ADir(name: string, children: seq<Asset>)
    | AUnreadableDir(name: string)

  /** fs.DirEntry.IsDir. */
  predicate IsDir(a: Asset) {
    !a.AFile?
  }

  /** A name embed.FS can hold: one non-empty segment that is not "." or "..". */
  predicate ValidName(n: string) {
    n != "" && n != "." && n != ".." && '/' !in n
  }

  /** Every name is valid and siblings have distinct names, at every level. */
  predicate WellFormed(cs: seq<Asset>)
    decreases cs
  {
    && (forall i :: 0 <= i < |cs| ==> ValidName(cs[i].name))
    && (forall i, j :: 0 <= i < j < |cs| ==> cs[i].name != cs[j].name)
    && (forall i :: 0 <= i < |cs| ==> cs[i].ADir? ==> WellFormed(cs[i].children))
  }

  /** The first sibling called `name`. */
  function Find(cs: seq<Asset>, name: string): (r: Option<Asset>)
    ensures r.Some? ==> r.value in cs && r.value.name == name
    ensures r.None? ==> forall i :: 0 <= i < |cs| ==> cs[i].name != name
  {
    if cs == [] then None
    else if cs[0].name == name then Some(cs[0])
    else Find(cs[1..], name)
  }

  /** The entry reached by following the segments `ns` down from the
      directory whose children are `cs`. */
  function Lookup(cs: seq<Asset>, ns: seq<string>): Option<Asset>
    decreases ns
  {
    if ns == [] then None
    else
      match Find(cs, ns[0])
      case None => None
      case Some(a) =>
        if |ns| == 1 then Some(a)
        else if a.ADir? then Lookup(a.children, ns[1..])
        else None
  }

  /** fs.ReadDir on the entry at `ns`. */
  function ReadDir(cs: seq<Asset>, ns: seq<string>, path: string): (r: Result<seq<Asset>, Error>)
    ensures r.Success? <==> Lookup(cs, ns).Some? && Lookup(cs, ns).value.ADir?
    ensures r.Success? ==> r.value == Lookup(cs, ns).value.children
  {
    match Lookup(cs, ns)
    case Some(ADir(_, kids)) => Success(kids)
    case Some(AUnreadableDir(_)) => Failure(ListingFailed(path))
    case Some(AFile(_, _)) => Failure(ListingFailed(path))
    case None => Failure(NotExist(path))
  }

  /** One invocation of the walk callback: an entry visited normally, or an
      error with the path it concerns. */
  datatype RawEvent = Visit(path: string, entry: Asset) | Fault(path: string, err: Error)

  /** fs.WalkDir(fsys, root, fn) with a callback that never stops the walk. */
  function WalkDir(top: seq<Asset>, root: string): (r: seq<RawEvent>)
    ensures Lookup(top, SplitPath(root)).None? ==> r == [Fault(root, NotExist(root))]
    ensures Lookup(top, SplitPath(root)).Some? ==> |r| >= 1 && r[0] == Visit(root, Lookup(top, SplitPath(root)).value)
  {
    match Lookup(top, SplitPath(root))
    case None => [Fault(root, NotExist(root))]
    case Some(a) => WalkFrom(a, root)
  }

  /** The callback invocations for the entry `a` found at `path` and
      everything below it. */
  function WalkFrom(a: Asset, path: string): seq<RawEvent>
    decreases a
  {
    match a
    case AFile(_, _) => [Visit(path, a)]
    case ADir(_, kids) => [Visit(path, a)] + WalkForest(kids, path)
    case AUnreadableDir(_) => [Visit(path, a), Fault(path, ListingFailed(path))]
  }

  /** The callback invocations for the children `cs` of the directory at
      `parent`, in listing order. */
  function WalkForest(cs: seq<Asset>, parent: string): seq<RawEvent>
    decreases cs
  {
    if cs == [] then []
    else WalkFrom(cs[0], parent + "/" + cs[0].name) + WalkForest(cs[1..], parent)
  }

  /** `q` is a path strictly below `parent`, and following its segments from
      the children `cs` of `parent` reaches `b`. */
  ghost predicate LocatedIn(cs: seq<Asset>, parent: string, q: string, b: Asset) {
    && parent + "/" <= q
    && Lookup(cs, SplitPath(q[|parent| + 1..])) == Some(b)
  }

  /** Visiting `q` with entry `b` in the walk from `a` at `root`: either the
      start itself, or something found below it. */
  ghost predicate Reaches(a: Asset, root: string, q: string, b: Asset) {
    || (q == root && b == a)
    || (a.ADir? && LocatedIn(a.children, root, q, b))
  }

  lemma FindFirst(cs: seq<Asset>)
    requires |cs| >= 1
    ensures Find(cs, cs[0].name) == Some(cs[0])
  {
  }

  /** With unique sibling names, an entry found among the later siblings is
      found the same way from the whole listing. */
  lemma LookupSkipHead(cs: seq<Asset>, ns: seq<string>)
    requires |cs| >= 1
    requires forall j :: 1 <= j < |cs| ==> cs[0].name != cs[j].name
    requires Lookup(cs[1..], ns).Some?
    ensures Lookup(cs, ns) == Lookup(cs[1..], ns)
  {
    var f := Find(cs[1..], ns[0]);
    assert f.Some?;
    assert cs[0].name != ns[0];
  }

  /** Looking up a longer path continues from the directory the shorter
      one reaches. */
  lemma {:induction false} LookupAppend(cs: seq<Asset>, xs: seq<string>, ys: seq<string>)
    requires Lookup(cs, xs).Some? && Lookup(cs, xs).value.ADir?
    requires |ys| >= 1
    ensures Lookup(cs, xs + ys) == Lookup(Lookup(cs, xs).value.children, ys)
    decreases xs
  {
    var a := Find(cs, xs[0]).value;
    assert (xs + ys)[0] == xs[0];
    if |xs| == 1 {
      assert (xs + ys)[1..] == ys;
    } else {
      assert (xs + ys)[1..] == xs[1..] + ys;
      LookupAppend(a.children, xs[1..], ys);
    }
  }

  /** Every segment of a path that reaches an entry is a valid name. */
  lemma {:induction false} LookupNames(cs: seq<Asset>, ns: seq<string>)
    requires WellFormed(cs)
    requires Lookup(cs, ns).Some?
    ensures |ns| >= 1
    ensures forall k :: 0 <= k < |ns| ==> ValidName(ns[k])
    decreases ns
  {
    var a := Find(cs, ns[0]).value;
    var i :| 0 <= i < |cs| && cs[i] == a;
    assert ValidName(ns[0]);
    if |ns| > 1 {
      LookupNames(a.children, ns[1..]);
      forall k | 0 <= k < |ns|
        ensures ValidName(ns[k])
      {
        if k > 0 {
          assert ns[k] == ns[1..][k - 1];
        }
      }
    }
  }

  /** Each visit of the walk from `a` at `root` is `a` itself or an entry
      found below it by the path the walk reports. */
  lemma {:induction false} WalkFromReaches(a: Asset, root: string)
    requires a.ADir? ==> WellFormed(a.children)
    ensures forall k :: 0 <= k < |WalkFrom(a, root)| && WalkFrom(a, root)[k].Visit? ==>
              Reaches(a, root, WalkFrom(a, root)[k].path, WalkFrom(a, root)[k].entry)
    decreases a
  {
    var w := WalkFrom(a, root);
    if a.ADir? {
      var rest := WalkForest(a.children, root);
      WalkForestLocated(a.children, root);
      forall k | 0 <= k < |w| && w[k].Visit?
        ensures Reaches(a, root, w[k].path, w[k].entry)
      {
        if k > 0 {
          assert w[k] == rest[k - 1];
        }
      }
    }
  }

  /** An entry reached from the first child, at the path the walk gives
      that child, is located among the children of `parent`. */
  lemma FirstChildLocated(cs: seq<Asset>, parent: string, q: string, b: Asset)
    requires WellFormed(cs) && cs != []
    requires Reaches(cs[0], parent + "/" + cs[0].name, q, b)
    ensures LocatedIn(cs, parent, q, b)
  {
    var c := cs[0];
    assert ValidName(c.name);
    FindFirst(cs);
    if q == parent + "/" + c.name && b == c {
      FirstChildItself(cs, parent);
    } else {
      FirstChildBelow(cs, parent, q, b);
    }
  }

  lemma FirstChildItself(cs: seq<Asset>, parent: string)
    requires cs != [] && ValidName(cs[0].name)
    ensures LocatedIn(cs, parent, parent + "/" + cs[0].name, cs[0])
  {
    var q := parent + "/" + cs[0].name;
    assert q[|parent| + 1..] == cs[0].name;
    SplitPlain(cs[0].name);
    FindFirst(cs);
  }

  lemma FirstChildBelow(cs: seq<Asset>, parent: string, q: string, b: Asset)
    requires cs != [] && ValidName(cs[0].name) && cs[0].ADir?
    requires LocatedIn(cs[0].children, parent + "/" + cs[0].name, q, b)
    ensures LocatedIn(cs, parent, q, b)
  {
    var c := cs[0];
    var here := parent + "/" + c.name;
    var r := q[|here| + 1..];
    assert q == here + "/" + r;
    assert q[|parent| + 1..] == c.name + "/" + r;
    SplitPlain(c.name);
    SplitConcat(c.name, r);
    var ns := SplitPath(r);
    assert ([c.name] + ns)[0] == c.name && ([c.name] + ns)[1..] == ns;
    FindFirst(cs);
  }

  /** Each visit of the walk over the children `cs` of `parent` reports a
      path below `parent` that leads back to the visited entry. */
  lemma {:induction false} WalkForestLocated(cs: seq<Asset>, parent: string)
    requires WellFormed(cs)
    ensures forall k :: 0 <= k < |WalkForest(cs, parent)| && WalkForest(cs, parent)[k].Visit? ==>
              LocatedIn(cs, parent, WalkForest(cs, parent)[k].path, WalkForest(cs, parent)[k].entry)
    decreases cs
  {
    if cs != [] {
      var c := cs[0];
      var here := parent + "/" + c.name;
      var head := WalkFrom(c, here);
      var tail := WalkForest(cs[1..], parent);
      var w := WalkForest(cs, parent);
      assert w == head + tail;
      WalkFromReaches(c, here);
      assert WellFormed(cs[1..]);
      WalkForestLocated(cs[1..], parent);
      forall k | 0 <= k < |w| && w[k].Visit?
        ensures LocatedIn(cs, parent, w[k].path, w[k].entry)
      {
        if k < |head| {
          assert head[k] == w[k];
          FirstChildLocated(cs, parent, w[k].path, w[k].entry);
        } else {
          assert tail[k - |head|] == w[k];
          LookupSkipHead(cs, SplitPath(w[k].path[|parent| + 1..]));
        }
      }
    }
  }

  /** A path that reaches past `xs` passes through a directory at `xs`. */
  lemma {:induction false} LookupThrough(cs: seq<Asset>, xs: seq<string>, ys: seq<string>)
    requires |xs| >= 1 && |ys| >= 1
    requires Lookup(cs, xs + ys).Some?
    ensures Lookup(cs, xs).Some? && Lookup(cs, xs).value.ADir?
    decreases xs
  {
    assert (xs + ys)[0] == xs[0];
    if |xs| > 1 {
      assert (xs + ys)[1..] == xs[1..] + ys;
      LookupThrough(Find(cs, xs[0]).value.children, xs[1..], ys);
    }
  }

  /** The walk over the children `cs` of `parent` visits every entry found
      below them, at the path that leads to it. */
  lemma {:induction false} WalkForestComplete(cs: seq<Asset>, parent: string, ns: seq<string>, b: Asset)
    requires Lookup(cs, ns) == Some(b)
    ensures Visit(parent + "/" + JoinWith(ns, "/"), b) in WalkForest(cs, parent)
    decreases |ns|, |cs|
  {
    var c := cs[0];
    var here := parent + "/" + c.name;
    var w := WalkForest(cs, parent);
    assert w == WalkFrom(c, here) + WalkForest(cs[1..], parent);
    if c.name == ns[0] {
      if |ns| == 1 {
        assert JoinWith(ns, "/") == c.name;
        assert WalkFrom(c, here)[0] == Visit(here, c);
        assert w[0] == Visit(here, c);
      } else {
        WalkForestComplete(c.children, here, ns[1..], b);
        assert JoinWith(ns, "/") == ns[0] + "/" + JoinWith(ns[1..], "/");
        assert parent + "/" + JoinWith(ns, "/") == here + "/" + JoinWith(ns[1..], "/");
        assert WalkFrom(c, here) == [Visit(here, c)] + WalkForest(c.children, here);
      }
    } else {
      assert Lookup(cs[1..], ns) == Lookup(cs, ns);
      WalkForestComplete(cs[1..], parent, ns, b);
    }
  }

  /** fs.WalkDir calls the callback for every file and directory in the
      tree below its root: an entry found by following `ns` below `root` is
      visited at `root/ns`. */
  lemma WalkDirComplete(top: seq<Asset>, root: string, ns: seq<string>, b: Asset)
    requires |ns| >= 1
    requires Lookup(top, SplitPath(root) + ns) == Some(b)
    ensures Visit(root + "/" + JoinWith(ns, "/"), b) in WalkDir(top, root)
  {
    LookupThrough(top, SplitPath(root), ns);
    LookupAppend(top, SplitPath(root), ns);
    var a := Lookup(top, SplitPath(root)).value;
    WalkForestComplete(a.children, root, ns, b);
    assert WalkDir(top, root) == [Visit(root, a)] + WalkForest(a.children, root);
  }
}

=== FILE: common.dfy ===
/** Shapes shared by every part of the model: Option and Result in place of
    Go's nil checks and (value, error) pairs, bytes, host paths, and the
    errors the deployment core can produce. */
module Common {

  /** A value that may be missing. */
  datatype Option<+T> = None | Some(value: T)

  /** Either a value (Go's `err == nil`) or an error (Go's `err != nil`). */
  datatype Result<+T, +E> = Success(value: T) | Failure(error: E)

  newtype byte = x: int | 0 <= x < 256

  type Bytes = seq<byte>

  /** A host path as its sequence of segments below the filesystem root;
      `[]` is the root itself. */
  type Path = seq<string>

  /** Every error the core produces, by the place that raises it. */
  datatype Error =
      /** fs.WalkDir: the walk root cannot be found. */
    | NotExist(path: string)
      /** fs.WalkDir: a directory's listing cannot be read. */
    | ListingFailed(path: string)
      /** TemplateManager.ReadFile: no file at the joined path. */
    | ReadFailed(fullPath: string)
      /** TemplateManager.ListTemplates: the walk reported an error. */
    | ListFailed(cause: Error)
      /** os.Stat on the host: no such file or directory. */
    | NoEntry(target: Path)
      /** "path exists but is not a directory". */
    | NotADirectory(target: Path)
      /** "path exists but is a directory". */
    | IsADirectory(target: Path)
      /** os.MkdirAll: a path segment on the way down is not a directory. */
    | MkdirFailed(at: Path)
      /** os.WriteFile: the target is a directory. */
    | WriteFailed(target: Path)
      /** OSFileSystem.CreateFile: "failed to create parent directory". */
    | ParentDirFailed(cause: Error)
      /** Engine.Run: "no template files found". */
    | NoTemplates
      /** Engine.Run: "failed to process templates". */
    | ProcessFailed(cause: Error)
      /** Engine.Run: "completed with N errors". */
    | CompletedWithErrors(count: nat)
}

=== FILE: engine.dfy ===
/** The deployment engine (engine.go): a fold over the entries the template
    manager walks, creating or skipping each one under `<target>/.claude`,
    counting what it did, and stopping at the first entry it cannot deploy. */
module Engine {
  import opened Common
  import opened Text
  import opened Assets
  import opened Templates
  import opened FileSystem
  import opened Summary

  /** The directory below the target that receives the templates, and the
      prefix of the embedded tree they are read from. */
  const ConfigDir := ".claude"

  /** Statistics: the counters and collected errors of one run. */
  datatype Statistics = Statistics(
    filesCreated: nat,
    filesSkipped: nat,
    dirsCreated: nat,
    dirsSkipped: nat,
    errors: seq<Error>)

  const NoStatistics := Statistics(0, 0, 0, 0, [])

  /** The parts of Config the core reads. */
  datatype Config = Config(targetDir: Path, dryRun: bool)

  datatype Engine = Engine(templates: TemplateManager, config: Config, port: Port)

  /** NewEngine: the dry-run port exactly when the configuration asks for a
      dry run, and a template manager rooted at ".claude". */
  function NewEngine(assets: seq<Asset>, config: Config): (e: Engine)
    ensures e.port.DryRun? <==> config.dryRun
    ensures e.templates.prefix == ConfigDir && e.templates.assets == assets
    ensures e.config == config
  {
    Engine(TemplateManager(assets, ConfigDir), config, if config.dryRun then DryRun else OS)
  }

  /** Where an entry at `rel` is deployed: `<target>/.claude/<rel>`. */
  function Target(e: Engine, rel: string): (r: Path)
    ensures |r| > |e.config.targetDir| + 1
    ensures r[..|e.config.targetDir|] == e.config.targetDir && r[|e.config.targetDir|] == ConfigDir
  {
    e.config.targetDir + [ConfigDir] + SplitPath(rel)
  }

  /** The segments of a target below `<target>/.claude`, joined with "/",
      give back the walked path it came from: distinct walked paths never
      share a target. */
  lemma TargetRejoins(e: Engine, rel: string)
    ensures var t := Target(e, rel);
            JoinWith(t[|e.config.targetDir| + 1..], "/") == rel
  {
    var base := e.config.targetDir + [ConfigDir];
    JoinSplit(rel);
    assert (base + SplitPath(rel))[|base|..] == SplitPath(rel);
  }

  /** The counters after one more entry of the given kind was created or
      skipped. */
  function Bump(st: Statistics, isDir: bool, created: bool): Statistics {
    if isDir then
      if created then st.(dirsCreated := st.dirsCreated + 1) else st.(dirsSkipped := st.dirsSkipped + 1)
    else
      if created then st.(filesCreated := st.filesCreated + 1) else st.(filesSkipped := st.filesSkipped + 1)
  }

  /** The statistics with one more error. */
  function Record(st: Statistics, err: Error): Statistics {
    st.(errors := st.errors + [err])
  }

  /** The state of the fold: statistics, host, and the error the callback
      returned, if it stopped the walk. */
  datatype Step = Step(stats: Statistics, host: Host, stop: Option<Error>)

  /** The entry `ev` is already deployed with the right kind in `h`. */
  ghost predicate Placed(e: Engine, ev: Event, h: Host)
    requires ev.Entry?
  {
    var t := Target(e, ev.rel);
    t in h && (h[t].Dir? <==> IsDir(ev.entry))
  }

  /** processDirectory. */
  function ProcessDirectory(e: Engine, st: Statistics, h: Host, target: Path): (r: Step)
    ensures Extends(h, r.host)
    ensures e.port.DryRun? ==> r.host == h
    ensures target in h && h[target].Dir? ==> r == Step(Bump(st, true, false), h, None)
    ensures target in h && h[target].File? ==> r == Step(Record(st, NotADirectory(target)), h, Some(NotADirectory(target)))
    ensures r.stop.Some? ==> r.host == h && r.stats == Record(st, r.stop.value)
    ensures target !in h && r.stop.None? ==> r.stats == Bump(st, true, true)
    ensures e.port.OS? && r.stop.None? ==> target in r.host && r.host[target].Dir?
    ensures e.port.OS? && target !in h && r.stop.None? ==> r.host[target] == Dir(GetDefaultDirMode())
    ensures NewOnlyAlong(h, r.host, target)
    ensures e.port.DryRun? && target !in h ==> r.stop.None?
  {
    if Exists(h, target) then
      var info := Stat(h, target).value;
      if !info.isDir then
        var err := NotADirectory(target);
        Step(Record(st, err), h, Some(err))
      else
        Step(Bump(st, true, false), h, None)
    else
      match CreateDir(e.port, h, target, GetDefaultDirMode())
      case Failure(err) => Step(Record(st, err), h, Some(err))
      case Success(h1) => Step(Bump(st, true, true), h1, None)
  }

  /** processFile: `rel` is the entry's path in the template tree,
      `target` where it is deployed. */
  function ProcessFile(e: Engine, st: Statistics, h: Host, rel: string, target: Path): (r: Step)
    ensures Extends(h, r.host)
    ensures e.port.DryRun? ==> r.host == h
    ensures target in h && h[target].File? ==> r == Step(Bump(st, false, false), h, None)
    ensures target in h && h[target].Dir? ==> r == Step(Record(st, IsADirectory(target)), h, Some(IsADirectory(target)))
    ensures target !in h && ReadFile(e.templates, rel).Failure? ==>
              r.stop == Some(ReadFile(e.templates, rel).error)
    ensures r.stop.Some? ==> r.host == h && r.stats == Record(st, r.stop.value)
    ensures target !in h && r.stop.None? ==>
              && ReadFile(e.templates, rel).Success?
              && r.stats == Bump(st, false, true)
              && (e.port.OS? ==>
                    target in r.host && r.host[target] == File(ReadFile(e.templates, rel).value, GetDefaultFileMode(rel)))
    ensures e.port.OS? && r.stop.None? ==> target in r.host && r.host[target].File?
    ensures NewOnlyAlong(h, r.host, target)
  {
    if Exists(h, target) then
      var info := Stat(h, target).value;
      if info.isDir then
        var err := IsADirectory(target);
        Step(Record(st, err), h, Some(err))
      else
        Step(Bump(st, false, false), h, None)
    else
      match ReadFile(e.templates, rel)
      case Failure(err) => Step(Record(st, err), h, Some(err))
      case Success(content) =>
        match CreateFile(e.port, h, target, content, GetDefaultFileMode(rel))
        case Failure(err) => Step(Record(st, err), h, Some(err))
        case Success(h1) => Step(Bump(st, false, true), h1, None)
  }

  /** The callback Run passes to TemplateManager.Walk, applied to one event:
      a walk error is recorded and the walk goes on; an entry is processed
      at its target, and an error processing it stops the walk. */
  function Handle(e: Engine, st: Statistics, h: Host, ev: Event): (r: Step)
    ensures Extends(h, r.host)
    ensures e.port.DryRun? ==> r.host == h
    ensures ev.WalkError? ==> r == Step(Record(st, ev.err), h, None)
    ensures r.stop.Some? ==> ev.Entry? && r.host == h && r.stats == Record(st, r.stop.value)
    ensures ev.Entry? && r.stop.None? ==>
              r.stats == Bump(st, IsDir(ev.entry), true) || r.stats == Bump(st, IsDir(ev.entry), false)
    ensures r.stop.None? ==> Advanced(st, ev, r.stats)
    ensures ev.Entry? ==> NewOnlyAlong(h, r.host, Target(e, ev.rel))
  {
    match ev
    case WalkError(_, err) => Step(Record(st, err), h, None)
    case Entry(rel, entry) =>
      var target := Target(e, rel);
      if IsDir(entry) then ProcessDirectory(e, st, h, target)
      else ProcessFile(e, st, h, rel, target)
  }

  /** An entry already deployed with the right kind is skipped, and
      nothing changes. */
  lemma HandleSkipsPlaced(e: Engine, st: Statistics, h: Host, ev: Event)
    requires ev.Entry? && Placed(e, ev, h)
    ensures Handle(e, st, h, ev) == Step(Bump(st, IsDir(ev.entry), false), h, None)
  {
  }

  /** A real run that gets past an entry leaves it deployed with the right
      kind. */
  lemma HandlePlaces(e: Engine, st: Statistics, h: Host, ev: Event)
    requires ev.Entry? && e.port.OS? && Handle(e, st, h, ev).stop.None?
    ensures Placed(e, ev, Handle(e, st, h, ev).host)
  {
  }

  /** The number of entries of each kind, and the errors of the walk
      itself, among `events`. */
  function CountFiles(events: seq<Event>): nat {
    if events == [] then 0
    else (if events[0].Entry? && !IsDir(events[0].entry) then 1 else 0) + CountFiles(events[1..])
  }

  function CountDirs(events: seq<Event>): nat {
    if events == [] then 0
    else (if events[0].Entry? && IsDir(events[0].entry) then 1 else 0) + CountDirs(events[1..])
  }

  function WalkErrors(events: seq<Event>): seq<Error> {
    if events == [] then []
    else (if events[0].WalkError? then [events[0].err] else []) + WalkErrors(events[1..])
  }

  /** `st'` is `st` after one event that did not stop the walk: a walk
      error recorded, or an entry counted as created or as skipped. */
  ghost predicate Advanced(st: Statistics, ev: Event, st': Statistics) {
    && (ev.WalkError? ==> st' == Record(st, ev.err))
    && (ev.Entry? ==> st' == Bump(st, IsDir(ev.entry), true) || st' == Bump(st, IsDir(ev.entry), false))
  }

  /** `st'` is `st` after a walk over `events` that reached its end: each
      file and each directory counted once, as created or as skipped, and
      exactly the walk errors recorded. */
  ghost predicate Counted(st: Statistics, events: seq<Event>, st': Statistics) {
    && st'.filesCreated + st'.filesSkipped == st.filesCreated + st.filesSkipped + CountFiles(events)
    && st'.dirsCreated + st'.dirsSkipped == st.dirsCreated + st.dirsSkipped + CountDirs(events)
    && st'.errors == st.errors + WalkErrors(events)
  }

  /** `st'` recorded at least one error after `st`, the last being `err`. */
  ghost predicate EndsWith(st: Statistics, st': Statistics, err: Error) {
    |st'.errors| > |st.errors| && st'.errors[|st'.errors| - 1] == err
  }

  /** `q` lies on the way to the target of some entry among `events`. */
  ghost predicate Towards(e: Engine, events: seq<Event>, q: Path) {
    exists k :: 0 <= k < |events| && events[k].Entry? && q <= Target(e, events[k].rel)
  }

  /** Every node of `h'` that is not in `h` lies on the way to the target of
      an entry among `events`. */
  ghost predicate NewOnlyTowards(e: Engine, events: seq<Event>, h: Host, h': Host) {
    forall q :: q in h' && q !in h ==> Towards(e, events, q)
  }

  /** The walk inside Run: the callback applied to each event in turn until
      it returns an error. Existing nodes are never changed, a dry run
      changes nothing, and when the walk completes every entry was counted
      once, as created or as skipped, and exactly the walk errors were
      recorded; a walk that stops records the error it stops with last, and
      it stops at the first entry whose callback fails: the walk over the
      events before that entry went on past each of them, and the result is
      that entry's step, with nothing after it handled. */
  function Deploy(e: Engine, events: seq<Event>, st: Statistics, h: Host): (r: Step)
    ensures Extends(h, r.host)
    ensures e.port.DryRun? ==> r.host == h
    ensures r.stop.None? ==> Counted(st, events, r.stats)
    ensures r.stop.Some? ==> EndsWith(st, r.stats, r.stop.value)
    ensures NewOnlyTowards(e, events, h, r.host)
    ensures r.stop.Some? ==> exists k :: StopsAt(e, events, st, h, k, r)
    decreases |events|, 2
  {
    if events == [] then Step(st, h, None)
    else
      var s := Handle(e, st, h, events[0]);
      if s.stop.Some? then
        FrameHead(e, events, h, s.host);
        assert events[..0] == [];
        assert StopsAt(e, events, st, h, 0, s);
        s
      else
        var r := Deploy(e, events[1..], s.stats, s.host);
        FoldStep(st, events, h, s, r);
        FrameStep(e, events, h, s.host, r.host);
        if r.stop.Some? then
          StopsLater(e, events, st, h, s, r);
          r
        else
          r
  }

  /** The walk over `events` stops at its `k`th event with result `r`: the
      events before it all went on, and `r` is that entry's step. */
  ghost predicate StopsAt(e: Engine, events: seq<Event>, st: Statistics, h: Host, k: int, r: Step)
    decreases |events|, 0
  {
    && 0 <= k < |events|
    && events[k].Entry?
    && Deploy(e, events[..k], st, h).stop.None?
    && r == Handle(e, Deploy(e, events[..k], st, h).stats, Deploy(e, events[..k], st, h).host, events[k])
  }

  /** A stop in the rest of the walk, after a first event that went on, is
      a stop one event later in the whole walk. */
  lemma StopsLater(e: Engine, events: seq<Event>, st: Statistics, h: Host, s: Step, r: Step)
    requires events != []
    requires s == Handle(e, st, h, events[0]) && s.stop.None?
    requires exists k :: StopsAt(e, events[1..], s.stats, s.host, k, r)
    ensures exists k :: StopsAt(e, events, st, h, k, r)
    decreases |events|, 1
  {
    var k :| StopsAt(e, events[1..], s.stats, s.host, k, r);
    assert events[..k + 1][0] == events[0] && events[..k + 1][1..] == events[1..][..k];
    assert Deploy(e, events[..k + 1], st, h) == Deploy(e, events[1..][..k], s.stats, s.host);
    assert events[1..][k] == events[k + 1];
    assert StopsAt(e, events, st, h, k + 1, r);
  }

  /** A walk that stops at its first event adds nodes only on the way to
      that event's target. */
  lemma FrameHead(e: Engine, events: seq<Event>, h: Host, h1: Host)
    requires events != []
    requires events[0].WalkError? ==> h1 == h
    requires events[0].Entry? ==> NewOnlyAlong(h, h1, Target(e, events[0].rel))
    ensures NewOnlyTowards(e, events, h, h1)
  {
    forall q | q in h1 && q !in h
      ensures Towards(e, events, q)
    {
      assert events[0].Entry? && q <= Target(e, events[0].rel);
    }
  }

  /** The nodes added by the first event and by the rest of the walk all lie
      on the way to targets of the walk's entries. */
  lemma FrameStep(e: Engine, events: seq<Event>, h: Host, h1: Host, h2: Host)
    requires events != []
    requires events[0].WalkError? ==> h1 == h
    requires events[0].Entry? ==> NewOnlyAlong(h, h1, Target(e, events[0].rel))
    requires NewOnlyTowards(e, events[1..], h1, h2)
    ensures NewOnlyTowards(e, events, h, h2)
  {
    forall q | q in h2 && q !in h
      ensures Towards(e, events, q)
    {
      if q in h1 {
        assert events[0].Entry? && q <= Target(e, events[0].rel);
      } else {
        var k :| 0 <= k < |events[1..]| && events[1..][k].Entry? && q <= Target(e, events[1..][k].rel);
        assert events[1..][k] == events[k + 1];
      }
    }
  }

  /** One step of the walk, on the counters and the host alone: what the
      first event and the rest of the walk each promise combines into the
      promise for the whole walk. */
  lemma FoldStep(st: Statistics, events: seq<Event>, h: Host, s: Step, r: Step)
    requires events != []
    requires Extends(h, s.host) && Extends(s.host, r.host)
    requires Advanced(st, events[0], s.stats)
    requires r.stop.None? ==> Counted(s.stats, events[1..], r.stats)
    requires r.stop.Some? ==> EndsWith(s.stats, r.stats, r.stop.value)
    ensures Extends(h, r.host)
    ensures r.stop.None? ==> Counted(st, events, r.stats)
    ensures r.stop.Some? ==> EndsWith(st, r.stats, r.stop.value)
  {
    ExtendsTrans(h, s.host, r.host);
    var ev, rest := events[0], events[1..];
    StepCounts(st, ev, s.stats);
    assert CountFiles(events) == (if ev.Entry? && !IsDir(ev.entry) then 1 else 0) + CountFiles(rest);
    assert CountDirs(events) == (if ev.Entry? && IsDir(ev.entry) then 1 else 0) + CountDirs(rest);
    assert WalkErrors(events) == (if ev.WalkError? then [ev.err] else []) + WalkErrors(rest);
  }

  /** What one event that did not stop the walk adds to the statistics. */
  lemma StepCounts(st: Statistics, ev: Event, st': Statistics)
    requires Advanced(st, ev, st')
    ensures st'.filesCreated + st'.filesSkipped
         == st.filesCreated + st.filesSkipped + (if ev.Entry? && !IsDir(ev.entry) then 1 else 0)
    ensures st'.dirsCreated + st'.dirsSkipped
         == st.dirsCreated + st.dirsSkipped + (if ev.Entry? && IsDir(ev.entry) then 1 else 0)
    ensures st'.errors == st.errors + (if ev.WalkError? then [ev.err] else [])
  {
  }

  /** What Run returns and leaves behind: the statistics, the host, the
      error Run returns (None for nil), and the summary lines printed. */
  datatype Report = Report(stats: Statistics, host: Host, err: Option<Error>, summary: seq<Line>)

  /** The walk ran to its end (so the summary was printed). */
  predicate Completed(r: Report) {
    r.err.None? || r.err.value.CompletedWithErrors?
  }

  /** What a run that found templates promises about its report `r`, for
      the walk over `events` from host `h`: existing nodes are kept, a dry
      run changes nothing, new nodes lie on the way to walked targets; the
      summary is printed exactly when the walk completed, and nil returned
      exactly when it completed without errors; a completed walk counted
      every entry once and recorded exactly the walk errors, and its
      summary reports those counts; a stopped walk returns its last
      recorded error, wrapped, and that error is the failed step of the
      first entry whose callback failed. */
  ghost predicate Concluded(e: Engine, h: Host, events: seq<Event>, r: Report) {
    && Extends(h, r.host)
    && (e.port.DryRun? ==> r.host == h)
    && NewOnlyTowards(e, events, h, r.host)
    && (r.summary != [] <==> Completed(r))
    && (r.err.None? <==> Completed(r) && r.stats.errors == [])
    && (Completed(r) ==>
          && r.stats.filesCreated + r.stats.filesSkipped == CountFiles(events)
          && r.stats.dirsCreated + r.stats.dirsSkipped == CountDirs(events)
          && r.stats.errors == WalkErrors(events)
          && r.summary == ShowSummary(r.stats.filesCreated, r.stats.filesSkipped, r.stats.dirsCreated,
                                      r.stats.dirsSkipped, |r.stats.errors|, e.config.dryRun))
    && (r.err.Some? ==> r.err.value.ProcessFailed? || r.err.value.CompletedWithErrors?)
    && (r.err.Some? && r.err.value.ProcessFailed? ==>
          |r.stats.errors| > 0 && r.err.value.cause == r.stats.errors[|r.stats.errors| - 1])
    && (r.err.Some? && r.err.value.CompletedWithErrors? ==> r.err.value.count == |r.stats.errors|)
    && (r.err.Some? && r.err.value.ProcessFailed? ==>
          exists k :: StopsAt(e, events, NoStatistics, h, k, Step(r.stats, r.host, Some(r.err.value.cause))))
  }

  /** Engine.Run on a freshly built engine, so the counts start at zero:
      without templates it fails before touching anything; otherwise the
      walk runs and its report is as Concluded says. */
  function Run(e: Engine, h: Host): (r: Report)
    ensures !HasTemplates(e.templates) ==> r == Report(NoStatistics, h, Some(NoTemplates), [])
    ensures HasTemplates(e.templates) ==> Concluded(e, h, Walk(e.templates), r)
    ensures Completed(r) ==> HasTemplates(e.templates)
  {
    if !HasTemplates(e.templates) then Report(NoStatistics, h, Some(NoTemplates), [])
    else
      var events := Walk(e.templates);
      var s := Deploy(e, events, NoStatistics, h);
      var r := Conclude(e, s);
      ConcludeFacts(e, h, events, s, r);
      r
  }

  /** What Run promises after a walk over `events`, from what the walk
      promises. */
  lemma ConcludeFacts(e: Engine, h: Host, events: seq<Event>, s: Step, r: Report)
    requires Extends(h, s.host)
    requires e.port.DryRun? ==> s.host == h
    requires s.stop.None? ==> Counted(NoStatistics, events, s.stats)
    requires s.stop.Some? ==> EndsWith(NoStatistics, s.stats, s.stop.value)
    requires NewOnlyTowards(e, events, h, s.host)
    requires s.stop.Some? ==> exists k :: StopsAt(e, events, NoStatistics, h, k, s)
    requires r == Conclude(e, s)
    ensures Concluded(e, h, events, r)
  {
  }

  /** The end of Run after the walk: a stopped walk is wrapped as "failed to
      process templates" with no summary; otherwise the summary is printed
      and the error count, if any, returned. */
  function Conclude(e: Engine, s: Step): (r: Report)
    ensures r.stats == s.stats && r.host == s.host
    ensures s.stop.Some? ==> r.err == Some(ProcessFailed(s.stop.value)) && r.summary == []
    ensures s.stop.None? ==> Completed(r) && (r.err.None? <==> s.stats.errors == [])
    ensures Completed(r) ==>
              r.summary == ShowSummary(r.stats.filesCreated, r.stats.filesSkipped, r.stats.dirsCreated,
                                       r.stats.dirsSkipped, |r.stats.errors|, e.config.dryRun)
    ensures r.err.Some? && r.err.value.CompletedWithErrors? ==> r.err.value.count == |s.stats.errors|
  {
    if s.stop.Some? then Report(s.stats, s.host, Some(ProcessFailed(s.stop.value)), [])
    else
      var st := s.stats;
      var lines := ShowSummary(st.filesCreated, st.filesSkipped, st.dirsCreated, st.dirsSkipped,
                               |st.errors|, e.config.dryRun);
      if |st.errors| > 0 then Report(st, s.host, Some(CompletedWithErrors(|st.errors|)), lines)
      else Report(st, s.host, None, lines)
  }

  /** Every entry among `events` is deployed with the right kind in `h`. */
  ghost predicate AllPlaced(e: Engine, events: seq<Event>, h: Host) {
    forall k :: 0 <= k < |events| && events[k].Entry? ==> Placed(e, events[k], h)
  }

  /** The statistics of a walk over `events` that found every entry in
      place. */
  function Skipped(st: Statistics, events: seq<Event>): Statistics {
    st.(filesSkipped := st.filesSkipped + CountFiles(events),
        dirsSkipped := st.dirsSkipped + CountDirs(events),
        errors := st.errors + WalkErrors(events))
  }

  /** A real walk that completes leaves every entry it met deployed with the
      right kind. */
  lemma {:induction false} DeployPlacesEntries(e: Engine, events: seq<Event>, st: Statistics, h: Host)
    requires e.port.OS?
    requires Deploy(e, events, st, h).stop.None?
    ensures AllPlaced(e, events, Deploy(e, events, st, h).host)
    decreases |events|
  {
    if events != [] {
      var s := Handle(e, st, h, events[0]);
      var r := Deploy(e, events[1..], s.stats, s.host);
      if events[0].Entry? {
        HandlePlaces(e, st, h, events[0]);
      }
      DeployPlacesEntries(e, events[1..], s.stats, s.host);
      forall k | 0 <= k < |events| && events[k].Entry?
        ensures Placed(e, events[k], r.host)
      {
        if k > 0 {
          assert events[k] == events[1..][k - 1];
        }
      }
    }
  }

  /** A walk over entries that are all in place skips every one of them,
      records only the walk errors, and leaves the host as it was. */
  lemma {:induction false} DeploySkipsPlaced(e: Engine, events: seq<Event>, st: Statistics, h: Host)
    requires AllPlaced(e, events, h)
    ensures Deploy(e, events, st, h) == Step(Skipped(st, events), h, None)
    decreases |events|
  {
    if events != [] {
      var s := Handle(e, st, h, events[0]);
      AllPlacedTail(e, events, h);
      if events[0].Entry? {
        HandleSkipsPlaced(e, st, h, events[0]);
      }
      DeploySkipsPlaced(e, events[1..], s.stats, h);
      SkippedStep(st, events, s.stats);
    }
  }

  lemma AllPlacedTail(e: Engine, events: seq<Event>, h: Host)
    requires events != [] && AllPlaced(e, events, h)
    ensures AllPlaced(e, events[1..], h)
  {
    forall k | 0 <= k < |events[1..]| && events[1..][k].Entry?
      ensures Placed(e, events[1..][k], h)
    {
      assert events[1..][k] == events[k + 1];
    }
  }

  /** Skipping the first event and then the rest is skipping them all. */
  lemma SkippedStep(st: Statistics, events: seq<Event>, st': Statistics)
    requires events != []
    requires events[0].WalkError? ==> st' == Record(st, events[0].err)
    requires events[0].Entry? ==> st' == Bump(st, IsDir(events[0].entry), false)
    ensures Skipped(st', events[1..]) == Skipped(st, events)
  {
    var ev, rest := events[0], events[1..];
    var file := if ev.Entry? && !IsDir(ev.entry) then 1 else 0;
    var dir := if ev.Entry? && IsDir(ev.entry) then 1 else 0;
    var errs := if ev.WalkError? then [ev.err] else [];
    assert CountFiles(events) == file + CountFiles(rest);
    assert CountDirs(events) == dir + CountDirs(rest);
    assert WalkErrors(events) == errs + WalkErrors(rest);
    assert st'.filesCreated == st.filesCreated && st'.dirsCreated == st.dirsCreated;
    assert st'.filesSkipped == st.filesSkipped + file && st'.dirsSkipped == st.dirsSkipped + dir;
    assert st'.errors == st.errors + errs;
  }

  /** Running the engine a second time on what a completed real run left
      behind creates nothing, skips everything the first run created or
      skipped, changes nothing, and ends the same way. */
  lemma RunIdempotent(e: Engine, h: Host)
    requires e.port.OS?
    requires Completed(Run(e, h))
    ensures var first := Run(e, h);
            var second := Run(e, first.host);
            && second.host == first.host
            && second.stats.filesCreated == 0 && second.stats.dirsCreated == 0
            && second.stats.filesSkipped == first.stats.filesCreated + first.stats.filesSkipped
            && second.stats.dirsSkipped == first.stats.dirsCreated + first.stats.dirsSkipped
            && second.err == first.err
  {
    var events := Walk(e.templates);
    var h1 := Deploy(e, events, NoStatistics, h).host;
    DeployPlacesEntries(e, events, NoStatistics, h);
    DeploySkipsPlaced(e, events, NoStatistics, h1);
  }

  /** Processing an entry for real keeps the host a tree. */
  lemma HandleKeepsValid(e: Engine, st: Statistics, h: Host, ev: Event)
    requires Valid(h)
    ensures Valid(Handle(e, st, h, ev).host)
  {
    if ev.Entry? && e.port.OS? {
      var t := Target(e, ev.rel);
      if IsDir(ev.entry) {
        OsCreateDirFailsIff(h, t, GetDefaultDirMode());
      } else if ReadFile(e.templates, ev.rel).Success? {
        OsCreateFileFailsIff(h, t, ReadFile(e.templates, ev.rel).value, GetDefaultFileMode(ev.rel));
      }
    }
  }

  /** A run keeps the host a tree. */
  lemma {:induction false} DeployKeepsValid(e: Engine, events: seq<Event>, st: Statistics, h: Host)
    requires Valid(h)
    ensures Valid(Deploy(e, events, st, h).host)
    decreases |events|
  {
    if events != [] {
      var s := Handle(e, st, h, events[0]);
      HandleKeepsValid(e, st, h, events[0]);
      if s.stop.None? {
        DeployKeepsValid(e, events[1..], s.stats, s.host);
      }
    }
  }

  lemma RunKeepsValid(e: Engine, h: Host)
    requires Valid(h)
    ensures Valid(Run(e, h).host)
  {
    if HasTemplates(e.templates) {
      DeployKeepsValid(e, Walk(e.templates), NoStatistics, h);
    }
  }

  /** Why a real run stops at an entry: its target has the wrong kind, a
      file is in the way of creating it, or its template cannot be read. */
  ghost predicate Blocked(e: Engine, ev: Event, h: Host)
    requires ev.Entry?
  {
    var t := Target(e, ev.rel);
    if t in h then h[t].Dir? != IsDir(ev.entry)
    else if IsDir(ev.entry) then FileOnPath(h, t)
    else ReadFile(e.templates, ev.rel).Failure? || FileOnPath(h, Parent(t))
  }

  /** On a tree, a real run stops at an entry exactly when it is blocked. */
  lemma HandleStopsIff(e: Engine, st: Statistics, h: Host, ev: Event)
    requires Valid(h) && e.port.OS? && ev.Entry?
    ensures Handle(e, st, h, ev).stop.Some? <==> Blocked(e, ev, h)
  {
    var t := Target(e, ev.rel);
    if t !in h {
      if IsDir(ev.entry) {
        OsCreateDirFailsIff(h, t, GetDefaultDirMode());
      } else if ReadFile(e.templates, ev.rel).Success? {
        OsCreateFileFailsIff(h, t, ReadFile(e.templates, ev.rel).value, GetDefaultFileMode(ev.rel));
      }
    }
  }

  /** A dry run stops at an entry exactly when its target already has the
      wrong kind, or its absent target is a file whose template cannot be
      read: nothing above the target is looked at. */
  lemma DryRunStopsIff(e: Engine, st: Statistics, h: Host, ev: Event)
    requires e.port.DryRun? && ev.Entry?
    ensures var t := Target(e, ev.rel);
            Handle(e, st, h, ev).stop.Some? <==>
              if t in h then h[t].Dir? != IsDir(ev.entry)
              else !IsDir(ev.entry) && ReadFile(e.templates, ev.rel).Failure?
  {
  }

  /** For a well-formed template tree, every target the engine touches lies
      strictly below `<target>/.claude`, one valid name per level: no "."
      or ".." segment can lead it elsewhere. */
  lemma TargetsStayInside(e: Engine)
    requires WellFormed(e.templates.assets)
    ensures forall k :: 0 <= k < |Walk(e.templates)| && Walk(e.templates)[k].Entry? ==>
              var t := Target(e, Walk(e.templates)[k].rel);
              var base := e.config.targetDir + [ConfigDir];
              && |t| > |base| && t[..|base|] == base
              && forall i :: |base| <= i < |t| ==> ValidName(t[i])
  {
    WalkReportsFaithfully(e.templates);
  }
}

=== FILE: fs.dfy ===
/** The filesystem port (fs.go): the capability set the engine uses to probe
    and populate the destination, with a variant that really changes the host
    (OSFileSystem) and one that only reports what it would do
    (DryRunFileSystem). The host is a map from paths to nodes. */
module FileSystem {
  import opened Common

  /** Mode given to parent directories OSFileSystem.CreateFile creates
      (octal 0755). */
  const ParentDirMode: nat := 493

  datatype Node = Dir(mode: nat) | File(content: Bytes, mode: nat)

  type Host = map<Path, Node>

  /** fs.FileInfo, as far as the core reads it. */
  datatype Info = Info(isDir: bool, mode: nat)

  /** filepath.Dir; the root is its own parent. */
  function Parent(p: Path): Path {
    if |p| == 0 then [] else p[..|p| - 1]
  }

  /** A host shaped like a real directory tree: the root is a directory and
      every other node sits in a directory. */
  ghost predicate Valid(h: Host) {
    && [] in h && h[[]].Dir?
    && forall p :: p in h && p != [] ==> Parent(p) in h && h[Parent(p)].Dir?
  }

  /** Nothing present in `h` is missing or different in `h'`. */
  ghost predicate Extends(h: Host, h': Host) {
    forall p :: p in h ==> p in h' && h'[p] == h[p]
  }

  /** Every node of `h'` that is not in `h` lies on the way to `p`: `p`
      itself or one of its ancestors. */
  ghost predicate NewOnlyAlong(h: Host, h': Host, p: Path) {
    forall q :: q in h' && q !in h ==> q <= p
  }

  lemma ExtendsTrans(h: Host, h': Host, h'': Host)
    requires Extends(h, h') && Extends(h', h'')
    ensures Extends(h, h'')
  {
  }

  /** os.Stat (OSFileSystem.Stat; DryRunFileSystem.Stat delegates to it). */
  function Stat(h: Host, p: Path): (r: Result<Info, Error>)
    ensures r.Success? <==> p in h
    ensures r.Success? ==> r.value.isDir == h[p].Dir? && r.value.mode == h[p].mode
  {
    if p in h then Success(Info(h[p].Dir?, h[p].mode)) else Failure(NoEntry(p))
  }

  /** OSFileSystem.Exists (DryRunFileSystem.Exists delegates to it): a
      path exists exactly when Stat succeeds on it. */
  function Exists(h: Host, p: Path): (r: bool)
    ensures r <==> Stat(h, p).Success?
    ensures r <==> p in h
  {
    Stat(h, p).Success?
  }

  /** os.MkdirAll: succeed if `p` is a directory, fail if it is anything
      else, otherwise create the parent chain first and then `p`. */
  function MkdirAll(h: Host, p: Path, perm: nat): (r: Result<Host, Error>)
    ensures r.Success? ==> Extends(h, r.value)
    ensures r.Success? ==> p in r.value && r.value[p].Dir?
    ensures r.Success? ==> forall q :: q in r.value && q !in h ==> q <= p && r.value[q] == Dir(perm)
    ensures r.Failure? ==> r.error.MkdirFailed? && r.error.at <= p && r.error.at in h && h[r.error.at].File?
    decreases |p|
  {
    if p in h then
      if h[p].Dir? then Success(h) else Failure(MkdirFailed(p))
    else if |p| == 0 then
      Success(h[p := Dir(perm)])
    else
      match MkdirAll(h, Parent(p), perm)
      case Failure(e) => Failure(e)
      case Success(h1) => Success(h1[p := Dir(perm)])
  }

  /** os.WriteFile: fails on a directory or when the parent is not a
      directory; truncates an existing file (keeping its mode) or creates a
      new one with `perm`. */
  function WriteFile(h: Host, p: Path, content: Bytes, perm: nat): (r: Result<Host, Error>)
    ensures r.Success? ==> p in r.value && r.value[p].File? && r.value[p].content == content
    ensures r.Success? ==> forall q :: q != p ==> (q in r.value <==> q in h) && (q in h ==> r.value[q] == h[q])
    ensures r.Success? && p !in h ==> r.value[p].mode == perm
    ensures r.Failure? ==> r.error == WriteFailed(p)
  {
    if p in h && h[p].Dir? then Failure(WriteFailed(p))
    else if |p| > 0 && !(Parent(p) in h && h[Parent(p)].Dir?) then Failure(WriteFailed(p))
    else if p in h then Success(h[p := File(content, h[p].mode)])
    else Success(h[p := File(content, perm)])
  }

  /** OSFileSystem.CreateDir: a no-op on an existing directory, an error on
      an existing non-directory, otherwise os.MkdirAll. */
  function OsCreateDir(h: Host, p: Path, perm: nat): (r: Result<Host, Error>)
    ensures p in h && h[p].Dir? ==> r == Success(h)
    ensures p in h && h[p].File? ==> r == Failure(NotADirectory(p))
    ensures r.Success? ==> Extends(h, r.value) && p in r.value && r.value[p].Dir?
    ensures r.Success? ==> forall q :: q in r.value && q !in h ==> q <= p && r.value[q] == Dir(perm)
    ensures p !in h && r.Failure? ==>
              r.error.MkdirFailed? && r.error.at < p && r.error.at in h && h[r.error.at].File?
  {
    if Exists(h, p) then
      var info := Stat(h, p).value;
      if !info.isDir then Failure(NotADirectory(p)) else Success(h)
    else
      MkdirAll(h, p, perm)
  }

  /** OSFileSystem.CreateFile: a no-op on an existing file (its content is
      never compared), an error on an existing directory, otherwise create
      the parent chain and write the file. */
  function OsCreateFile(h: Host, p: Path, content: Bytes, perm: nat): (r: Result<Host, Error>)
    ensures p in h && h[p].Dir? ==> r == Failure(IsADirectory(p))
    ensures p in h && h[p].File? ==> r == Success(h)
    ensures r.Success? ==> Extends(h, r.value) && p in r.value && r.value[p].File?
    ensures r.Success? && p !in h ==> r.value[p] == File(content, perm)
    ensures r.Success? ==>
              forall q :: q in r.value && q !in h && q != p ==> q < p && r.value[q] == Dir(ParentDirMode)
    ensures p !in h && r.Failure? ==> r.error.ParentDirFailed? || r.error == WriteFailed(p)
  {
    if Exists(h, p) then
      var info := Stat(h, p).value;
      if info.isDir then Failure(IsADirectory(p)) else Success(h)
    else
      match OsCreateDir(h, Parent(p), ParentDirMode)
      case Failure(e) => Failure(ParentDirFailed(e))
      case Success(h1) => WriteFile(h1, p, content, perm)
  }

  /** What DryRunFileSystem reports instead of changing the host. */
  datatype Notice =
    | WouldSkipDir(path: Path)
    | WouldCreateDir(path: Path, mode: nat)
    | WouldSkipFile(path: Path)
    | WouldCreateFile(path: Path, mode: nat, size: nat)

  /** DryRunFileSystem.CreateDir: the kind check at `p` only, then a
      notice. */
  function DryRunCreateDir(h: Host, p: Path, perm: nat): (r: Result<Notice, Error>)
    ensures r.Failure? <==> p in h && h[p].File?
    ensures r.Failure? ==> r.error == NotADirectory(p)
    ensures r.Success? ==> r.value == (if p in h then WouldSkipDir(p) else WouldCreateDir(p, perm))
  {
    if Exists(h, p) then
      var info := Stat(h, p).value;
      if !info.isDir then Failure(NotADirectory(p)) else Success(WouldSkipDir(p))
    else
      Success(WouldCreateDir(p, perm))
  }

  /** DryRunFileSystem.CreateFile: the kind check at `p` only, then a
      notice. */
  function DryRunCreateFile(h: Host, p: Path, content: Bytes, perm: nat): (r: Result<Notice, Error>)
    ensures r.Failure? <==> p in h && h[p].Dir?
    ensures r.Failure? ==> r.error == IsADirectory(p)
    ensures r.Success? ==>
              r.value == (if p in h then WouldSkipFile(p) else WouldCreateFile(p, perm, |content|))
  {
    if Exists(h, p) then
      var info := Stat(h, p).value;
      if info.isDir then Failure(IsADirectory(p)) else Success(WouldSkipFile(p))
    else
      Success(WouldCreateFile(p, perm, |content|))
  }

  /** The FileSystem implementation the engine was built with. */
  datatype Port = OS | DryRun

  /** FileSystem.CreateDir, dispatched on the implementation. */
  function CreateDir(port: Port, h: Host, p: Path, perm: nat): (r: Result<Host, Error>)
    ensures r.Success? ==> Extends(h, r.value)
    ensures port.DryRun? && r.Success? ==> r.value == h
    ensures port.OS? && r.Success? ==> p in r.value && r.value[p].Dir?
    ensures port.OS? && r.Success? && p !in h ==> r.value[p] == Dir(perm)
    ensures r.Success? ==> NewOnlyAlong(h, r.value, p)
    ensures p in h && h[p].Dir? ==> r == Success(h)
    ensures p in h && h[p].File? ==> r == Failure(NotADirectory(p))
  {
    match port
    case OS => OsCreateDir(h, p, perm)
    case DryRun =>
      match DryRunCreateDir(h, p, perm)
      case Success(_) => Success(h)
      case Failure(e) => Failure(e)
  }

  /** FileSystem.CreateFile, dispatched on the implementation. */
  function CreateFile(port: Port, h: Host, p: Path, content: Bytes, perm: nat): (r: Result<Host, Error>)
    ensures r.Success? ==> Extends(h, r.value)
    ensures port.DryRun? && r.Success? ==> r.value == h
    ensures port.OS? && r.Success? ==> p in r.value && r.value[p].File?
    ensures port.OS? && r.Success? && p !in h ==> r.value[p] == File(content, perm)
    ensures r.Success? ==> NewOnlyAlong(h, r.value, p)
    ensures p in h && h[p].Dir? ==> r == Failure(IsADirectory(p))
    ensures p in h && h[p].File? ==> r == Success(h)
  {
    match port
    case OS => OsCreateFile(h, p, content, perm)
    case DryRun =>
      match DryRunCreateFile(h, p, content, perm)
      case Success(_) => Success(h)
      case Failure(e) => Failure(e)
  }

  /** In a valid host every proper prefix of a present path is a
      directory. */
  lemma {:induction false} ValidAncestors(h: Host, p: Path)
    requires Valid(h)
    requires p in h
    ensures forall i :: 0 <= i < |p| ==> p[..i] in h && h[p[..i]].Dir?
    decreases |p|
  {
    if p != [] {
      var q := Parent(p);
      ValidAncestors(h, q);
      forall i | 0 <= i < |p|
        ensures p[..i] in h && h[p[..i]].Dir?
      {
        if i < |q| {
          assert p[..i] == q[..i];
        }
      }
    }
  }

  /** Some prefix of `p`, or `p` itself, is a file. */
  ghost predicate FileOnPath(h: Host, p: Path) {
    exists i :: 0 <= i <= |p| && p[..i] in h && h[p[..i]].File?
  }

  /** In a valid host, os.MkdirAll fails exactly when a file sits at `p` or
      above it. */
  lemma {:induction false} MkdirAllFailsIff(h: Host, p: Path, perm: nat)
    requires Valid(h)
    ensures MkdirAll(h, p, perm).Failure? <==> FileOnPath(h, p)
    decreases |p|
  {
    var r := MkdirAll(h, p, perm);
    if r.Failure? {
      var at := r.error.at;
      assert p[..|at|] == at;
    }
    if FileOnPath(h, p) {
      var i :| 0 <= i <= |p| && p[..i] in h && h[p[..i]].File?;
      if p in h {
        ValidAncestors(h, p);
        assert p[..|p|] == p;
      } else {
        var q := Parent(p);
        assert i < |p| by {
          assert p[..|p|] == p;
        }
        assert p[..i] == q[..i];
        MkdirAllFailsIff(h, q, perm);
      }
    }
  }

  /** os.MkdirAll keeps a host a tree. */
  lemma {:induction false} MkdirAllValid(h: Host, p: Path, perm: nat)
    requires Valid(h)
    requires MkdirAll(h, p, perm).Success?
    ensures Valid(MkdirAll(h, p, perm).value)
    decreases |p|
  {
    if p !in h {
      var q := Parent(p);
      MkdirAllValid(h, q, perm);
    }
  }

  /** In a valid host, OSFileSystem.CreateDir fails exactly when a file sits
      at the target or above it; on success the host stays a tree. */
  lemma OsCreateDirFailsIff(h: Host, p: Path, perm: nat)
    requires Valid(h)
    ensures OsCreateDir(h, p, perm).Failure? <==> FileOnPath(h, p)
    ensures OsCreateDir(h, p, perm).Success? ==> Valid(OsCreateDir(h, p, perm).value)
  {
    if p in h {
      ValidAncestors(h, p);
      assert p[..|p|] == p;
    } else {
      MkdirAllFailsIff(h, p, perm);
      if MkdirAll(h, p, perm).Success? {
        MkdirAllValid(h, p, perm);
      }
    }
  }

  /** In a valid host, OSFileSystem.CreateFile fails exactly when a
      directory occupies the target or a file sits strictly above it; on
      success the host stays a tree. */
  lemma OsCreateFileFailsIff(h: Host, p: Path, content: Bytes, perm: nat)
    requires Valid(h)
    ensures OsCreateFile(h, p, content, perm).Failure? <==>
              (p in h && h[p].Dir?) || (p !in h && FileOnPath(h, Parent(p)))
    ensures OsCreateFile(h, p, content, perm).Success? ==> Valid(OsCreateFile(h, p, content, perm).value)
  {
    if p !in h {
      var q := Parent(p);
      OsCreateDirFailsIff(h, q, ParentDirMode);
      var made := OsCreateDir(h, q, ParentDirMode);
      if made.Success? {
        var h1 := made.value;
        assert p !in h1;
        var h2 := h1[p := File(content, perm)];
        assert WriteFile(h1, p, content, perm) == Success(h2);
        assert forall x :: x in h2 && x != [] ==> Parent(x) in h2 && h2[Parent(x)].Dir?;
      }
    }
  }

  /** Where the target itself is in the way, both implementations refuse
      with the same error; where it already has the right kind, both leave
      the host alone. */
  lemma KindChecksAgree(h: Host, p: Path, content: Bytes, perm: nat)
    requires p in h
    ensures CreateDir(OS, h, p, perm) == CreateDir(DryRun, h, p, perm)
    ensures CreateFile(OS, h, p, content, perm) == CreateFile(DryRun, h, p, content, perm)
  {
  }

  /** DryRunFileSystem does not look above the target: with a file where a
      parent directory should be, the real CreateFile fails while the dry
      run reports that it would create the file. */
  lemma DryRunIgnoresParent()
    ensures var h := map[[] := Dir(ParentDirMode), ["f"] := File([], 420)];
            && Valid(h)
            && CreateFile(OS, h, ["f", "x"], [], 420).Failure?
            && CreateFile(DryRun, h, ["f", "x"], [], 420) == Success(h)
  {
    var h := map[[] := Dir(ParentDirMode), ["f"] := File([], 420)];
    assert Parent(["f", "x"]) == ["f"];
    assert Parent(["f"]) == [];
  }
}

=== FILE: scenario.dfy ===
/** A worked example: a template tree holding a "commands" directory with
    "ask.md" inside it and a top-level "settings.json", deployed three times
    into a project directory, and once more as a dry run. Each run is
    computed from the model's definitions, and so is its summary. */
module Scenario {
  import opened Common
  import opened Text
  import opened Assets
  import opened Templates
  import opened FileSystem
  import opened Summary
  import opened Engine

  /** The bytes of "hello" and of "{}". */
  const Hello: Bytes := [104, 101, 108, 108, 111]
  const Braces: Bytes := [123, 125]
  const Ask := AFile("ask.md", Hello)
  const Commands := ADir("commands", [Ask])
  const Settings := AFile("settings.json", Braces)
  const Root := ADir(".claude", [Commands, Settings])
  const Tree := [Root]

  /** The walk of the tree, step by step: fs.WalkDir's visits, then what
      TemplateManager.Walk makes of them. */
  lemma RootFound()
    ensures Lookup(Tree, SplitPath(".claude")) == Some(Root)
  {
    SplitPlain(".claude");
  }

  lemma CommandsWalk()
    ensures WalkFrom(Commands, ".claude/commands") ==
              [Visit(".claude/commands", Commands), Visit(".claude/commands/ask.md", Ask)]
  {
    assert WalkForest([Ask], ".claude/commands") == [Visit(".claude/commands/ask.md", Ask)] by {
      assert ".claude/commands" + "/" + "ask.md" == ".claude/commands/ask.md";
      assert [Ask][1..] == [];
    }
  }

  lemma SettingsWalk()
    ensures WalkForest([Settings], ".claude") == [Visit(".claude/settings.json", Settings)]
  {
    assert ".claude" + "/" + "settings.json" == ".claude/settings.json";
    assert [Settings][1..] == [];
  }

  lemma ForestWalk()
    ensures WalkForest([Commands, Settings], ".claude") ==
              [Visit(".claude/commands", Commands), Visit(".claude/commands/ask.md", Ask),
               Visit(".claude/settings.json", Settings)]
  {
    var kids := [Commands, Settings];
    assert ".claude" + "/" + "commands" == ".claude/commands";
    CommandsWalk();
    SettingsWalk();
    assert kids[1..] == [Settings];
  }

  lemma RawWalk()
    ensures WalkDir(Tree, ".claude") ==
              [Visit(".claude", Root)] +
              [Visit(".claude/commands", Commands), Visit(".claude/commands/ask.md", Ask),
               Visit(".claude/settings.json", Settings)]
  {
    RootWalk();
    ForestWalk();
  }

  lemma RootWalk()
    ensures WalkDir(Tree, ".claude") == WalkFrom(Root, ".claude")
  {
    RootFound();
  }

  const Manager := TemplateManager(Tree, ".claude")

  lemma RelayOne(rel: string, a: Asset)
    requires |rel| > 0
    ensures Relay(".claude", Visit(".claude/" + rel, a)) == [Entry(rel, a)]
  {
    assert ".claude" + "/" == ".claude/";
    TrimPrefixOfConcat(".claude/", rel);
  }

  lemma RelayCons(e: RawEvent, rest: seq<RawEvent>)
    ensures RelayAll(".claude", [e] + rest) == Relay(".claude", e) + RelayAll(".claude", rest)
  {
    assert ([e] + rest)[1..] == rest;
  }

  lemma RelaySettings()
    ensures RelayAll(".claude", [Visit(".claude/settings.json", Settings)]) == [Entry("settings.json", Settings)]
  {
    assert ".claude/" + "settings.json" == ".claude/settings.json";
    RelayOne("settings.json", Settings);
    RelayCons(Visit(".claude/settings.json", Settings), []);
  }

  lemma RelayAsk()
    ensures RelayAll(".claude", [Visit(".claude/commands/ask.md", Ask), Visit(".claude/settings.json", Settings)])
         == [Entry("commands/ask.md", Ask), Entry("settings.json", Settings)]
  {
    assert ".claude/" + "commands/ask.md" == ".claude/commands/ask.md";
    RelayOne("commands/ask.md", Ask);
    RelaySettings();
    RelayCons(Visit(".claude/commands/ask.md", Ask), [Visit(".claude/settings.json", Settings)]);
  }

  lemma RelayCommands()
    ensures RelayAll(".claude", [Visit(".claude/commands", Commands), Visit(".claude/commands/ask.md", Ask),
                                 Visit(".claude/settings.json", Settings)])
         == [Entry("commands", Commands), Entry("commands/ask.md", Ask), Entry("settings.json", Settings)]
  {
    assert ".claude/" + "commands" == ".claude/commands";
    RelayOne("commands", Commands);
    RelayAsk();
    RelayCons(Visit(".claude/commands", Commands),
              [Visit(".claude/commands/ask.md", Ask), Visit(".claude/settings.json", Settings)]);
  }

  /** The walk reports the directory, then the file inside it, then the
      top-level file, each relative to ".claude". */
  lemma ScenarioWalk()
    ensures Walk(Manager) ==
              [Entry("commands", Commands), Entry("commands/ask.md", Ask), Entry("settings.json", Settings)]
  {
    RawWalk();
    RelayCommands();
    RelayCons(Visit(".claude", Root), [Visit(".claude/commands", Commands), Visit(".claude/commands/ask.md", Ask),
                                       Visit(".claude/settings.json", Settings)]);
  }

  /** The project directory and the paths the entries are deployed to. */
  const Project: Path := ["proj"]
  const Base: Path := ["proj", ".claude"]
  const CommandsAt: Path := ["proj", ".claude", "commands"]
  const AskAt: Path := ["proj", ".claude", "commands", "ask.md"]
  const SettingsAt: Path := ["proj", ".claude", "settings.json"]

  const Deployer := NewEngine(Tree, Config(Project, false))

  /** The target directory exists and is empty. */
  const Empty: Host := map[[] := Dir(ModeExecutable), Project := Dir(ModeExecutable)]

  /** The segments of the relative paths, and where each entry lands. */
  lemma SplitCommands()
    ensures SplitPath("commands") == ["commands"]
  {
    SplitPlain("commands");
  }

  lemma SplitAsk()
    ensures SplitPath("ask.md") == ["ask.md"]
  {
    SplitPlain("ask.md");
  }

  lemma SplitSettings()
    ensures SplitPath("settings.json") == ["settings.json"]
  {
    SplitPlain("settings.json");
  }

  lemma SplitClaude()
    ensures SplitPath(".claude") == [".claude"]
  {
    SplitPlain(".claude");
  }

  lemma SplitAskPath()
    ensures SplitPath("commands/ask.md") == ["commands", "ask.md"]
  {
    SplitCommands();
    SplitAsk();
    SplitConcat("commands", "ask.md");
    AskPathText();
  }

  /** The literal glued by SplitConcat; kept apart so the proof above stays
      small. */
  lemma AskPathText()
    ensures "commands" + "/" + "ask.md" == "commands/ask.md"
  {
  }

  lemma SplitFullAsk()
    ensures SplitPath(".claude" + "/" + "commands/ask.md") == [".claude", "commands", "ask.md"]
  {
    SplitClaude();
    SplitAskPath();
    SplitConcat(".claude", "commands/ask.md");
  }

  lemma SplitFullSettings()
    ensures SplitPath(".claude" + "/" + "settings.json") == [".claude", "settings.json"]
  {
    SplitClaude();
    SplitSettings();
    SplitConcat(".claude", "settings.json");
  }

  lemma CommandsTarget()
    ensures Target(Deployer, "commands") == CommandsAt
  {
    SplitCommands();
  }

  lemma AskTarget()
    ensures Target(Deployer, "commands/ask.md") == AskAt
  {
    SplitAskPath();
  }

  lemma SettingsTarget()
    ensures Target(Deployer, "settings.json") == SettingsAt
  {
    SplitSettings();
  }

  /** Both template files can be read back, and neither is a script. */
  lemma AskReadable()
    ensures ReadFile(Manager, "commands/ask.md") == Success(Hello)
  {
    assert JoinSlash(".claude", "commands/ask.md") == ".claude" + "/" + "commands/ask.md";
    SplitFullAsk();
    assert Lookup(Tree, [".claude", "commands", "ask.md"]) == Some(Ask);
  }

  lemma SettingsReadable()
    ensures ReadFile(Manager, "settings.json") == Success(Braces)
  {
    assert JoinSlash(".claude", "settings.json") == ".claude" + "/" + "settings.json";
    SplitFullSettings();
    assert Find([Commands, Settings], "settings.json") == Some(Settings) by {
      assert "commands" != "settings.json";
      assert [Commands, Settings][1..] == [Settings];
    }
    assert Lookup(Tree, [".claude", "settings.json"]) == Some(Settings);
  }

  lemma RegularModes()
    ensures GetDefaultFileMode("commands/ask.md") == ModeRegular
    ensures GetDefaultFileMode("settings.json") == ModeRegular
  {
    var f := "commands/ask.md";
    assert f[|f| - 1] == 'd';
    var g := "settings.json";
    assert g[|g| - 1] == 'n';
  }

  lemma ScenarioHasTemplates()
    ensures HasTemplates(Manager)
  {
    RootFound();
  }

  const CommandsEntry := Entry("commands", Commands)
  const AskEntry := Entry("commands/ask.md", Ask)
  const SettingsEntry := Entry("settings.json", Settings)

  /** Each entry deployed on its own, for the hosts the runs meet. */
  lemma PlaceCommands(st: Statistics, h: Host)
    requires Project in h && h[Project].Dir? && CommandsAt !in h
    requires Base in h ==> h[Base] == Dir(ModeExecutable)
    ensures Handle(Deployer, st, h, CommandsEntry)
         == Step(Bump(st, true, true),
                 (if Base in h then h else h[Base := Dir(ModeExecutable)])[CommandsAt := Dir(ModeExecutable)],
                 None)
  {
    CommandsTarget();
    assert Parent(CommandsAt) == Base;
    assert Parent(Base) == Project;
  }

  lemma PlaceAsk(st: Statistics, h: Host)
    requires CommandsAt in h && h[CommandsAt].Dir? && AskAt !in h
    ensures Handle(Deployer, st, h, AskEntry) == Step(Bump(st, false, true), h[AskAt := File(Hello, ModeRegular)], None)
  {
    AskTarget();
    AskReadable();
    RegularModes();
    assert Parent(AskAt) == CommandsAt;
  }

  lemma PlaceSettings(st: Statistics, h: Host)
    requires Base in h && h[Base].Dir? && SettingsAt !in h
    ensures Handle(Deployer, st, h, SettingsEntry)
         == Step(Bump(st, false, true), h[SettingsAt := File(Braces, ModeRegular)], None)
  {
    SettingsTarget();
    SettingsReadable();
    RegularModes();
    assert Parent(SettingsAt) == Base;
  }

  lemma SettingsBlocked(st: Statistics, h: Host)
    requires SettingsAt in h && h[SettingsAt].Dir?
    ensures Handle(Deployer, st, h, SettingsEntry)
         == Step(Record(st, IsADirectory(SettingsAt)), h, Some(IsADirectory(SettingsAt)))
  {
    SettingsTarget();
  }

  const Walked := [CommandsEntry, AskEntry, SettingsEntry]

  /** The project after the first run: ".claude" and "commands" created as
      directories, both files written with mode 0644. */
  const Filled: Host :=
    Empty[Base := Dir(ModeExecutable)][CommandsAt := Dir(ModeExecutable)]
         [AskAt := File(Hello, ModeRegular)][SettingsAt := File(Braces, ModeRegular)]

  lemma FirstDeployTail(s2: Statistics, h2: Host)
    requires Base in h2 && h2[Base].Dir? && SettingsAt !in h2
    ensures Deploy(Deployer, [SettingsEntry], s2, h2)
         == Step(Bump(s2, false, true), h2[SettingsAt := File(Braces, ModeRegular)], None)
  {
    PlaceSettings(s2, h2);
    assert [SettingsEntry][1..] == [];
  }

  lemma FirstDeployMiddle(s1: Statistics, h1: Host)
    requires Base in h1 && h1[Base].Dir? && CommandsAt in h1 && h1[CommandsAt].Dir?
    requires AskAt !in h1 && SettingsAt !in h1
    ensures Deploy(Deployer, [AskEntry, SettingsEntry], s1, h1)
         == Step(Bump(Bump(s1, false, true), false, true),
                 h1[AskAt := File(Hello, ModeRegular)][SettingsAt := File(Braces, ModeRegular)], None)
  {
    PlaceAsk(s1, h1);
    FirstDeployTail(Bump(s1, false, true), h1[AskAt := File(Hello, ModeRegular)]);
    assert [AskEntry, SettingsEntry][1..] == [SettingsEntry];
  }

  /** The paths the scenario deploys to are pairwise different and absent
      from the empty target. */
  lemma Distinct()
    ensures Base !in Empty && CommandsAt !in Empty && AskAt !in Empty && SettingsAt !in Empty
    ensures AskAt != Base && AskAt != CommandsAt
    ensures SettingsAt != Base && SettingsAt != CommandsAt && SettingsAt != AskAt
  {
    assert |AskAt| == 4 && |SettingsAt| == 3 && |CommandsAt| == 3 && |Base| == 2;
    assert SettingsAt[2] != CommandsAt[2] by {
      assert |SettingsAt[2]| != |CommandsAt[2]|;
    }
  }

  /** The host once ".claude/commands" exists in the empty project. */
  const Opened: Host := Empty[Base := Dir(ModeExecutable)][CommandsAt := Dir(ModeExecutable)]

  lemma FirstCommands()
    ensures Handle(Deployer, NoStatistics, Empty, CommandsEntry)
         == Step(Bump(NoStatistics, true, true), Opened, None)
  {
    Distinct();
    PlaceCommands(NoStatistics, Empty);
  }

  lemma FirstDeploy()
    ensures Deploy(Deployer, [CommandsEntry] + [AskEntry, SettingsEntry], NoStatistics, Empty)
         == Step(Bump(Bump(Bump(NoStatistics, true, true), false, true), false, true),
                 Opened[AskAt := File(Hello, ModeRegular)][SettingsAt := File(Braces, ModeRegular)], None)
  {
    FirstCommands();
    FirstOpened();
    FirstDeployMiddle(Bump(NoStatistics, true, true), Opened);
    DeployCons(Deployer, CommandsEntry, [AskEntry, SettingsEntry], NoStatistics, Empty);
  }

  lemma FirstOpened()
    ensures Base in Opened && Opened[Base].Dir? && CommandsAt in Opened && Opened[CommandsAt].Dir?
    ensures AskAt !in Opened && SettingsAt !in Opened
    ensures Opened[AskAt := File(Hello, ModeRegular)][SettingsAt := File(Braces, ModeRegular)] == Filled
  {
    Distinct();
  }

  /** First run on the empty project: two files and one directory created,
      no error, and the summary says so. */
  lemma FirstRun()
    ensures Run(Deployer, Empty)
         == Report(Statistics(2, 0, 1, 0, []), Filled, None, [CreatedLine(Items(2, 1)), Initialized])
  {
    ScenarioHasTemplates();
    EnginesWalk();
    FirstDeploy();
    FirstOpened();
    RehearsedStatistics();
    RunOutcome(Deployer, Empty, Step(Statistics(2, 0, 1, 0, []), Filled, None));
    FirstAndSecondRun();
  }

  /** Both engines walk the scenario's tree. */
  lemma EnginesWalk()
    ensures Deployer.templates == Manager && !Deployer.config.dryRun
    ensures Rehearsal.templates == Manager && Rehearsal.config.dryRun
    ensures Walk(Manager) == [CommandsEntry] + [AskEntry, SettingsEntry]
    ensures Walk(Manager) == [CommandsEntry] + ([AskEntry] + [SettingsEntry])
  {
    WalkShapes();
  }

  lemma WalkShapes()
    ensures Walk(Manager) == [CommandsEntry] + [AskEntry, SettingsEntry]
    ensures Walk(Manager) == [CommandsEntry] + ([AskEntry] + [SettingsEntry])
  {
    ScenarioWalk();
    ThreeSplit(CommandsEntry, AskEntry, SettingsEntry);
  }

  /** A three-event walk is its head followed by the other two. */
  lemma ThreeSplit(a: Event, b: Event, c: Event)
    ensures [a, b, c] == [a] + [b, c] == [a] + ([b] + [c])
  {
    assert [b] + [c] == [b, c];
  }

  /** What Run reports, given what the walk inside it returned. */
  lemma RunOutcome(e: Engine, h: Host, s: Step)
    requires HasTemplates(e.templates)
    requires Deploy(e, Walk(e.templates), NoStatistics, h) == s
    ensures s.stop.Some? ==> Run(e, h) == Report(s.stats, s.host, Some(ProcessFailed(s.stop.value)), [])
    ensures s.stop.None? && s.stats.errors == [] ==>
              Run(e, h) == Report(s.stats, s.host, None,
                                  ShowSummary(s.stats.filesCreated, s.stats.filesSkipped, s.stats.dirsCreated,
                                              s.stats.dirsSkipped, 0, e.config.dryRun))
  {
  }

  /** Second run on what the first left behind: everything skipped, nothing
      changed, and the summary says all files already exist. */
  lemma SecondRun()
    ensures Run(Deployer, Filled)
         == Report(Statistics(0, 2, 0, 1, []), Filled, None, [SkippedLine(Items(2, 1)), AllExist])
  {
    FirstRun();
    RunIdempotent(Deployer, Empty);
    FirstAndSecondRun();
  }

  /** The target already holds ".claude" and a directory where the
      settings file belongs. */
  const Crowded: Host := Empty[Base := Dir(ModeExecutable)][SettingsAt := Dir(ModeExecutable)]

  const Conflict := IsADirectory(SettingsAt)

  lemma ThirdDeployTail(s1: Statistics, h1: Host)
    requires CommandsAt in h1 && h1[CommandsAt].Dir? && AskAt !in h1
    requires SettingsAt in h1 && h1[SettingsAt].Dir?
    ensures Deploy(Deployer, [AskEntry, SettingsEntry], s1, h1)
         == Step(Record(Bump(s1, false, true), Conflict), h1[AskAt := File(Hello, ModeRegular)], Some(Conflict))
  {
    Distinct();
    PlaceAsk(s1, h1);
    SettingsBlocked(Bump(s1, false, true), h1[AskAt := File(Hello, ModeRegular)]);
    assert [AskEntry, SettingsEntry][1..] == [SettingsEntry];
  }

  /** One step of the fold. */
  lemma DeployCons(e: Engine, ev: Event, rest: seq<Event>, st: Statistics, h: Host)
    ensures Deploy(e, [ev] + rest, st, h)
         == var s := Handle(e, st, h, ev);
            if s.stop.Some? then s else Deploy(e, rest, s.stats, s.host)
  {
    assert ([ev] + rest)[1..] == rest;
  }

  lemma ThirdCommands()
    ensures Handle(Deployer, NoStatistics, Crowded, CommandsEntry)
         == Step(Bump(NoStatistics, true, true), Crowded[CommandsAt := Dir(ModeExecutable)], None)
  {
    Distinct();
    PlaceCommands(NoStatistics, Crowded);
  }

  lemma ThirdDeploy()
    ensures Deploy(Deployer, [CommandsEntry] + [AskEntry, SettingsEntry], NoStatistics, Crowded)
         == Step(Record(Bump(Bump(NoStatistics, true, true), false, true), Conflict),
                 Crowded[CommandsAt := Dir(ModeExecutable)][AskAt := File(Hello, ModeRegular)],
                 Some(Conflict))
  {
    Distinct();
    ThirdCommands();
    var h1 := Crowded[CommandsAt := Dir(ModeExecutable)];
    assert AskAt !in h1;
    ThirdDeployTail(Bump(NoStatistics, true, true), h1);
    DeployCons(Deployer, CommandsEntry, [AskEntry, SettingsEntry], NoStatistics, Crowded);
  }

  /** Third run, with a directory where "settings.json" belongs: the
      directory and "ask.md" are created before the conflict, the conflict
      is recorded and stops the walk, and no summary is printed. */
  lemma ThirdRun()
    ensures Run(Deployer, Crowded)
         == Report(Statistics(1, 0, 1, 0, [Conflict]),
                   Crowded[CommandsAt := Dir(ModeExecutable)][AskAt := File(Hello, ModeRegular)],
                   Some(ProcessFailed(Conflict)), [])
  {
    ScenarioHasTemplates();
    EnginesWalk();
    ThirdDeploy();
    assert Record(Bump(Bump(NoStatistics, true, true), false, true), Conflict) == Statistics(1, 0, 1, 0, [Conflict]);
    RunOutcome(Deployer, Crowded,
               Step(Statistics(1, 0, 1, 0, [Conflict]),
                    Crowded[CommandsAt := Dir(ModeExecutable)][AskAt := File(Hello, ModeRegular)], Some(Conflict)));
  }

  /** The same tree and project, as a dry run. */
  const Rehearsal := NewEngine(Tree, Config(Project, true))

  /** A dry run on a target where none of the entries exists reports each
      one as created and changes nothing. */
  lemma RehearseAbsent(st: Statistics, h: Host, ev: Event)
    requires ev in Walked
    requires Target(Rehearsal, ev.rel) !in h
    ensures Handle(Rehearsal, st, h, ev) == Step(Bump(st, IsDir(ev.entry), true), h, None)
  {
    AskReadable();
    SettingsReadable();
  }

  /** Both engines deploy to the same places. */
  lemma RehearsalTargets()
    ensures forall ev :: ev in Walked ==> Target(Rehearsal, ev.rel) == Target(Deployer, ev.rel)
  {
  }

  lemma RehearseSettings(st: Statistics, h: Host)
    requires SettingsAt !in h
    ensures Deploy(Rehearsal, [SettingsEntry], st, h) == Step(Bump(st, false, true), h, None)
  {
    SettingsTarget();
    RehearsalTargets();
    RehearseAbsent(st, h, SettingsEntry);
    DeployCons(Rehearsal, SettingsEntry, [], st, h);
    assert [SettingsEntry] + [] == [SettingsEntry];
  }

  lemma RehearseAsk(st: Statistics, h: Host)
    requires AskAt !in h && SettingsAt !in h
    ensures Deploy(Rehearsal, [AskEntry] + [SettingsEntry], st, h)
         == Step(Bump(Bump(st, false, true), false, true), h, None)
  {
    AskTarget();
    RehearsalTargets();
    RehearseAbsent(st, h, AskEntry);
    DeployCons(Rehearsal, AskEntry, [SettingsEntry], st, h);
    RehearseSettings(Bump(st, false, true), h);
  }

  lemma RehearseDeploy(h: Host)
    requires CommandsAt !in h && AskAt !in h && SettingsAt !in h
    ensures Deploy(Rehearsal, [CommandsEntry] + ([AskEntry] + [SettingsEntry]), NoStatistics, h)
         == Step(Bump(Bump(Bump(NoStatistics, true, true), false, true), false, true), h, None)
  {
    CommandsTarget();
    RehearsalTargets();
    RehearseAbsent(NoStatistics, h, CommandsEntry);
    DeployCons(Rehearsal, CommandsEntry, [AskEntry] + [SettingsEntry], NoStatistics, h);
    RehearseAsk(Bump(NoStatistics, true, true), h);
  }

  lemma RehearsedStatistics()
    ensures Bump(Bump(Bump(NoStatistics, true, true), false, true), false, true) == Statistics(2, 0, 1, 0, [])
  {
  }

  /** On the empty target the dry run reports what the first real run
      does, and leaves the target empty. */
  lemma RehearseFirstRun()
    ensures Run(Rehearsal, Empty)
         == Report(Statistics(2, 0, 1, 0, []), Empty, None,
                   [DryRunBanner, CreatedLine(Items(2, 1)), Initialized])
  {
    ScenarioHasTemplates();
    EnginesWalk();
    Distinct();
    RehearseDeploy(Empty);
    RehearsedStatistics();
    RunOutcome(Rehearsal, Empty, Step(Statistics(2, 0, 1, 0, []), Empty, None));
    FirstAndSecondRun();
  }

  /** A file where ".claude" should be. */
  const Blocking: Host := Empty[Base := File([], ModeRegular)]

  /** With a file in the way of ".claude", the real run stops at the first
      entry, having created nothing ... */
  lemma BlockedParentStopsRun()
    ensures Run(Deployer, Blocking)
         == Report(Statistics(0, 0, 0, 0, [MkdirFailed(Base)]), Blocking, Some(ProcessFailed(MkdirFailed(Base))), [])
  {
    ScenarioHasTemplates();
    EnginesWalk();
    BlockedDeploy();
    assert Record(NoStatistics, MkdirFailed(Base)) == Statistics(0, 0, 0, 0, [MkdirFailed(Base)]);
    RunOutcome(Deployer, Blocking, Step(Statistics(0, 0, 0, 0, [MkdirFailed(Base)]), Blocking, Some(MkdirFailed(Base))));
  }

  lemma BlockedDeploy()
    ensures Deploy(Deployer, [CommandsEntry] + [AskEntry, SettingsEntry], NoStatistics, Blocking)
         == Step(Record(NoStatistics, MkdirFailed(Base)), Blocking, Some(MkdirFailed(Base)))
  {
    BlockedCommands();
    DeployCons(Deployer, CommandsEntry, [AskEntry, SettingsEntry], NoStatistics, Blocking);
  }

  lemma BlockedCommands()
    ensures Handle(Deployer, NoStatistics, Blocking, CommandsEntry)
         == Step(Record(NoStatistics, MkdirFailed(Base)), Blocking, Some(MkdirFailed(Base)))
  {
    CommandsTarget();
    BlockedMkdir();
  }

  /** Creating "commands" under the blocking file fails at ".claude". */
  lemma BlockedMkdir()
    ensures CommandsAt !in Blocking
    ensures CreateDir(OS, Blocking, CommandsAt, GetDefaultDirMode()) == Failure(MkdirFailed(Base))
  {
    Distinct();
    assert Parent(CommandsAt) == Base;
    assert MkdirAll(Blocking, Base, GetDefaultDirMode()) == Failure(MkdirFailed(Base));
  }

  /** ... while the dry run reports everything as created: it does not look
      above each target. */
  lemma RehearsalMissesBlockedParent()
    ensures Run(Rehearsal, Blocking)
         == Report(Statistics(2, 0, 1, 0, []), Blocking, None,
                   [DryRunBanner, CreatedLine(Items(2, 1)), Initialized])
  {
    ScenarioHasTemplates();
    EnginesWalk();
    Distinct();
    RehearseDeploy(Blocking);
    RehearsedStatistics();
    RunOutcome(Rehearsal, Blocking, Step(Statistics(2, 0, 1, 0, []), Blocking, None));
    FirstAndSecondRun();
  }
}

=== FILE: summary.dfy ===
/** The end-of-run report of the engine (engine.go showSummary and
    pluralize): which lines are printed for a set of counts, and their text.
    Colours, output streams and the verbose per-error listing are not part of
    the model. */
module Summary {
  import opened Text

  /** pluralize: the word itself for a count of one, otherwise its plural,
      with "directory" as the one irregular word. */
  function Pluralize(word: string, count: int): (r: string)
    ensures count == 1 ==> r == word
    ensures count != 1 && word == "directory" ==> r == "directories"
    ensures count != 1 && word != "directory" ==> r == word + "s"
    ensures r == word <==> count == 1
    ensures |word| > 0 ==> word[..|word| - 1] <= r
  {
    if count == 1 then word
    else if word == "directory" then "directories"
    else word + "s"
  }

  /** `fmt.Sprintf("%d %s", count, pluralize(word, count))`. */
  function CountPhrase(count: nat, word: string): string {
    NatToString(count) + " " + Pluralize(word, count)
  }

  /** The items of a "Created" or "Skipped" line: only the non-zero counts,
      files before directories. */
  function Items(files: nat, dirs: nat): (r: seq<string>)
    ensures |r| == (if files > 0 then 1 else 0) + (if dirs > 0 then 1 else 0)
    ensures files > 0 ==> r[0] == CountPhrase(files, "file")
    ensures dirs > 0 ==> r[|r| - 1] == CountPhrase(dirs, "directory")
  {
    (if files > 0 then [CountPhrase(files, "file")] else [])
      + (if dirs > 0 then [CountPhrase(dirs, "directory")] else [])
  }

  datatype Level = SuccessLevel | InfoLevel | ErrorLevel

  /** The lines showSummary may print, before rendering. */
  datatype Line =
    | DryRunBanner
    | CreatedLine(items: seq<string>)
    | SkippedLine(items: seq<string>)
    | ErrorTally(count: nat)
    | AllExist
    | Initialized

  /** The level and text a summary line is printed with. */
  function Render(line: Line): (r: (Level, string))
    ensures r.0 == ErrorLevel <==> line.ErrorTally?
    ensures r.0 == SuccessLevel <==> line.CreatedLine? || line.Initialized?
    ensures line.CreatedLine? ==> "Created " <= r.1
    ensures line.SkippedLine? ==> "Skipped " <= r.1
    ensures line.CreatedLine? && |line.items| == 1 ==> r.1 == "Created " + line.items[0]
    ensures line.CreatedLine? && |line.items| == 2 ==>
              r.1 == "Created " + line.items[0] + " and " + line.items[1]
    ensures line.SkippedLine? && |line.items| == 1 ==> r.1 == "Skipped " + line.items[0] + " (already exist)"
    ensures line.SkippedLine? && |line.items| == 2 ==>
              r.1 == "Skipped " + line.items[0] + " and " + line.items[1] + " (already exist)"
    ensures line.ErrorTally? ==>
              r.1 == "Encountered " + NatToString(line.count) + " " + Pluralize("error", line.count)
                     + " during initialization"
  {
    match line
    case DryRunBanner => (InfoLevel, "DRY RUN - No changes were made")
    case CreatedLine(items) =>
      JoinTwo(items, " and ");
      (SuccessLevel, "Created " + JoinWith(items, " and "))
    case SkippedLine(items) =>
      JoinTwo(items, " and ");
      (InfoLevel, "Skipped " + JoinWith(items, " and ") + " (already exist)")
    case ErrorTally(n) =>
      (ErrorLevel, "Encountered " + NatToString(n) + " " + Pluralize("error", n) + " during initialization")
    case AllExist => (InfoLevel, "All Claude configuration files already exist")
    case Initialized => (SuccessLevel, "Claude configuration initialized successfully")
  }

  /** strings.Join of one or two items: the item itself, or both glued by
      the separator. */
  lemma JoinTwo(items: seq<string>, sep: string)
    ensures |items| == 1 ==> JoinWith(items, sep) == items[0]
    ensures |items| == 2 ==> JoinWith(items, sep) == items[0] + sep + items[1]
  {
    if |items| == 2 {
      assert JoinWith(items[1..], sep) == items[1];
    }
  }

  /** The count in the error line is the number of errors, in decimal, and
      the word after it is "error", followed by an "s" unless the count is
      one. */
  lemma ErrorLineCount(n: nat)
    ensures var t := Render(ErrorTally(n)).1;
            var d := NatToString(n);
            && "Encountered " + d + " error" <= t
            && ParseDecimal(d) == n
            && ("Encountered " + d + " errors" <= t <==> n != 1)
  {
    ParseFormat(n);
    var d := NatToString(n);
    var t := Render(ErrorTally(n)).1;
    var tail := " during initialization";
    if n == 1 {
      assert t == "Encountered " + d + " error" + tail;
      assert t[|"Encountered " + d + " error"|] == ' ';
    } else {
      assert t == "Encountered " + d + " errors" + tail;
    }
  }

  /** The position of each kind of line in the order showSummary prints
      them: banner, created, skipped, error count, status. */
  function Rank(line: Line): nat {
    match line
    case DryRunBanner => 0
    case CreatedLine(_) => 1
    case SkippedLine(_) => 2
    case ErrorTally(_) => 3
    case AllExist => 4
    case Initialized => 4
  }

  /** Each line comes strictly after the ones before it in print order, so
      no kind of line appears twice. */
  predicate InPrintOrder(lines: seq<Line>) {
    forall i, j :: 0 <= i < j < |lines| ==> Rank(lines[i]) < Rank(lines[j])
  }

  /** Every line ranks from `lo` up to, not including, `hi`. */
  predicate Ranked(lines: seq<Line>, lo: nat, hi: nat) {
    forall k :: 0 <= k < |lines| ==> lo <= Rank(lines[k]) < hi
  }

  /** Two runs of lines in print order, the first ranked below `m` and the
      second from `m` on, are in print order together. */
  lemma PrintOrderJoin(a: seq<Line>, b: seq<Line>, lo: nat, m: nat, hi: nat)
    requires InPrintOrder(a) && InPrintOrder(b)
    requires lo <= m <= hi
    requires Ranked(a, lo, m) && Ranked(b, m, hi)
    ensures InPrintOrder(a + b) && Ranked(a + b, lo, hi)
  {
    forall i, j | 0 <= i < j < |a + b|
      ensures Rank((a + b)[i]) < Rank((a + b)[j])
    {
      if j < |a| {
        assert (a + b)[i] == a[i] && (a + b)[j] == a[j];
      } else if i < |a| {
        assert (a + b)[i] == a[i] && (a + b)[j] == b[j - |a|];
      } else {
        assert (a + b)[i] == b[i - |a|] && (a + b)[j] == b[j - |a|];
      }
    }
    forall k | 0 <= k < |a + b|
      ensures lo <= Rank((a + b)[k]) < hi
    {
      if k < |a| {
        assert (a + b)[k] == a[k];
      } else {
        assert (a + b)[k] == b[k - |a|];
      }
    }
  }

  /** Membership in three consecutive parts. */
  lemma InParts<T>(a: seq<T>, b: seq<T>, c: seq<T>, x: T)
    ensures x in a + b + c <==> x in a || x in b || x in c
  {
  }

  /** The one-line part printed when `cond` holds. */
  function LineIf(cond: bool, line: Line): (r: seq<Line>)
    ensures line in r <==> cond
    ensures |r| <= 1
    ensures forall k :: 0 <= k < |r| ==> r[k] == line
  {
    if cond then [line] else []
  }

  /** The tally lines of the summary: what was created, what was skipped,
      and how many errors were met, each only when its count is not zero. */
  function TallyLines(filesCreated: nat, filesSkipped: nat, dirsCreated: nat, dirsSkipped: nat,
                      errorCount: nat): (r: seq<Line>)
    ensures CreatedLine(Items(filesCreated, dirsCreated)) in r <==> filesCreated + dirsCreated > 0
    ensures SkippedLine(Items(filesSkipped, dirsSkipped)) in r <==> filesSkipped + dirsSkipped > 0
    ensures ErrorTally(errorCount) in r <==> errorCount > 0
    ensures forall x :: x in r ==>
              || x == CreatedLine(Items(filesCreated, dirsCreated))
              || x == SkippedLine(Items(filesSkipped, dirsSkipped))
              || x == ErrorTally(errorCount)
    ensures InPrintOrder(r) && Ranked(r, 1, 4)
  {
    var created := LineIf(filesCreated + dirsCreated > 0, CreatedLine(Items(filesCreated, dirsCreated)));
    var skipped := LineIf(filesSkipped + dirsSkipped > 0, SkippedLine(Items(filesSkipped, dirsSkipped)));
    var errors := LineIf(errorCount > 0, ErrorTally(errorCount));
    var c, sk, er := filesCreated + dirsCreated > 0, filesSkipped + dirsSkipped > 0, errorCount > 0;
    var cl := CreatedLine(Items(filesCreated, dirsCreated));
    var sl := SkippedLine(Items(filesSkipped, dirsSkipped));
    TallyOrder(created, skipped, errors, c, sk, er, cl, sl, ErrorTally(errorCount));
    TallyMembers(created, skipped, errors, c, sk, er, cl, sl, ErrorTally(errorCount));
    created + skipped + errors
  }

  /** The three optional tally lines, joined, are in print order. */
  lemma TallyOrder(created: seq<Line>, skipped: seq<Line>, errors: seq<Line>, c: bool, sk: bool, er: bool,
                   cl: Line, sl: Line, el: Line)
    requires cl.CreatedLine? && sl.SkippedLine? && el.ErrorTally?
    requires created == LineIf(c, cl) && skipped == LineIf(sk, sl) && errors == LineIf(er, el)
    ensures InPrintOrder(created + skipped + errors) && Ranked(created + skipped + errors, 1, 4)
  {
    PrintOrderJoin(created, skipped, 1, 2, 3);
    PrintOrderJoin(created + skipped, errors, 1, 3, 4);
  }

  /** The three optional tally lines, joined: each present exactly under
      its condition, and nothing else. */
  lemma TallyMembers(created: seq<Line>, skipped: seq<Line>, errors: seq<Line>, c: bool, sk: bool, er: bool,
                     cl: Line, sl: Line, el: Line)
    requires cl.CreatedLine? && sl.SkippedLine? && el.ErrorTally?
    requires created == LineIf(c, cl) && skipped == LineIf(sk, sl) && errors == LineIf(er, el)
    ensures var r := created + skipped + errors;
            && (cl in r <==> c) && (sl in r <==> sk) && (el in r <==> er)
            && (forall x :: x in r ==> x == cl || x == sl || x == el)
  {
    InParts(created, skipped, errors, cl);
    InParts(created, skipped, errors, sl);
    InParts(created, skipped, errors, el);
    forall x | x in created + skipped + errors
      ensures x == cl || x == sl || x == el
    {
      InParts(created, skipped, errors, x);
    }
  }

  /** The closing status line: everything was already there, or the run
      succeeded, or (when errors were met) nothing. */
  function StatusLine(totalCreated: nat, totalSkipped: nat, errorCount: nat): (r: seq<Line>)
    ensures AllExist in r <==> totalCreated == 0 && totalSkipped > 0
    ensures Initialized in r <==> !(totalCreated == 0 && totalSkipped > 0) && errorCount == 0
    ensures |r| <= 1
    ensures forall x :: x in r ==> x == AllExist || x == Initialized
    ensures Ranked(r, 4, 5)
  {
    if totalCreated == 0 && totalSkipped > 0 then [AllExist]
    else if errorCount == 0 then [Initialized]
    else []
  }

  /** showSummary: the lines printed after a completed walk. */
  function ShowSummary(filesCreated: nat, filesSkipped: nat, dirsCreated: nat, dirsSkipped: nat,
                       errorCount: nat, dryRun: bool): (r: seq<Line>)
    ensures DryRunBanner in r <==> dryRun
    ensures CreatedLine(Items(filesCreated, dirsCreated)) in r <==> filesCreated + dirsCreated > 0
    ensures SkippedLine(Items(filesSkipped, dirsSkipped)) in r <==> filesSkipped + dirsSkipped > 0
    ensures ErrorTally(errorCount) in r <==> errorCount > 0
    ensures |r| >= 1
    ensures forall x :: x in r ==>
              || x == DryRunBanner
              || x == CreatedLine(Items(filesCreated, dirsCreated))
              || x == SkippedLine(Items(filesSkipped, dirsSkipped))
              || x == ErrorTally(errorCount)
              || x == AllExist || x == Initialized
    ensures InPrintOrder(r)
  {
    var banner := LineIf(dryRun, DryRunBanner);
    var tally := TallyLines(filesCreated, filesSkipped, dirsCreated, dirsSkipped, errorCount);
    var status := StatusLine(filesCreated + dirsCreated, filesSkipped + dirsSkipped, errorCount);
    ShowParts(banner, tally, status, dryRun, CreatedLine(Items(filesCreated, dirsCreated)),
              SkippedLine(Items(filesSkipped, dirsSkipped)), ErrorTally(errorCount));
    banner + tally + status
  }

  /** The banner, the tally lines and the status line, joined: the banner
      exactly on a dry run, each tally line exactly when the tally has it,
      nothing else, in print order. */
  lemma ShowParts(banner: seq<Line>, tally: seq<Line>, status: seq<Line>, dryRun: bool,
                  cl: Line, sl: Line, el: Line)
    requires banner == LineIf(dryRun, DryRunBanner)
    requires cl.CreatedLine? && sl.SkippedLine? && el.ErrorTally?
    requires forall x :: x in tally ==> x == cl || x == sl || x == el
    requires InPrintOrder(tally) && Ranked(tally, 1, 4)
    requires |status| <= 1 && Ranked(status, 4, 5)
    requires forall x :: x in status ==> x == AllExist || x == Initialized
    ensures var r := banner + tally + status;
            && (DryRunBanner in r <==> dryRun)
            && (cl in r <==> cl in tally) && (sl in r <==> sl in tally) && (el in r <==> el in tally)
            && (forall x :: x in r ==>
                  x == DryRunBanner || x == cl || x == sl || x == el || x == AllExist || x == Initialized)
            && InPrintOrder(r)
  {
    PrintOrderJoin(banner, tally, 0, 1, 4);
    PrintOrderJoin(banner + tally, status, 0, 4, 5);
    InParts(banner, tally, status, DryRunBanner);
    InParts(banner, tally, status, cl);
    InParts(banner, tally, status, sl);
    InParts(banner, tally, status, el);
    forall x | x in banner + tally + status
      ensures x == DryRunBanner || x == cl || x == sl || x == el || x == AllExist || x == Initialized
    {
      InParts(banner, tally, status, x);
    }
  }

  /** The closing line of the summary says that everything already existed
      exactly when nothing was created and something was skipped, and that
      initialization succeeded exactly when that is not so and no error was
      met. */
  lemma SummaryStatus(filesCreated: nat, filesSkipped: nat, dirsCreated: nat, dirsSkipped: nat,
                      errorCount: nat, dryRun: bool)
    ensures var r := ShowSummary(filesCreated, filesSkipped, dirsCreated, dirsSkipped, errorCount, dryRun);
      && (AllExist in r <==> filesCreated + dirsCreated == 0 && filesSkipped + dirsSkipped > 0)
      && (Initialized in r <==>
            !(filesCreated + dirsCreated == 0 && filesSkipped + dirsSkipped > 0) && errorCount == 0)
  {
    var tally := TallyLines(filesCreated, filesSkipped, dirsCreated, dirsSkipped, errorCount);
    assert AllExist !in tally && Initialized !in tally;
  }

  /** The phrases of a run that met two files and one directory. */
  lemma TwoFilesOneDirectory()
    ensures Items(2, 1) == ["2 files", "1 directory"]
  {
    assert |"file"| != |"directory"|;
    assert NatToString(2) == "2" && NatToString(1) == "1";
    assert "2" + " " + "files" == "2 files";
    assert "1" + " " + "directory" == "1 directory";
    assert CountPhrase(2, "file") == "2 files";
    assert CountPhrase(1, "directory") == "1 directory";
  }

  /** The text of the tally lines for two files and one directory. */
  lemma TallyText()
    ensures Render(CreatedLine(Items(2, 1))).1 == "Created 2 files and 1 directory"
    ensures Render(SkippedLine(Items(2, 1))).1 == "Skipped 2 files and 1 directory (already exist)"
  {
    TwoFilesOneDirectory();
    TallyJoin();
    CreatedWords();
    SkippedWords();
  }

  /** The words of the tally lines, glued; one literal per lemma keeps
      each proof small. */
  lemma TallyJoin()
    ensures JoinWith(["2 files", "1 directory"], " and ") == "2 files" + " and " + "1 directory"
  {
  }

  lemma CreatedWords()
    ensures "Created " + ("2 files" + " and " + "1 directory") == "Created 2 files and 1 directory"
  {
  }

  lemma SkippedWords()
    ensures "Skipped " + ("2 files" + " and " + "1 directory") + " (already exist)"
         == "Skipped 2 files and 1 directory (already exist)"
  {
  }

  /** A first run that created two files and one directory reports them and
      success; a second run that found them all reports that they exist; a
      dry run is announced before anything else. */
  lemma FirstAndSecondRun()
    ensures ShowSummary(2, 0, 1, 0, 0, false) == [CreatedLine(Items(2, 1)), Initialized]
    ensures ShowSummary(0, 2, 0, 1, 0, false) == [SkippedLine(Items(2, 1)), AllExist]
    ensures ShowSummary(2, 0, 1, 0, 0, true) == [DryRunBanner, CreatedLine(Items(2, 1)), Initialized]
  {
    FirstSummary();
    SecondSummary();
  }

  lemma FirstSummary()
    ensures ShowSummary(2, 0, 1, 0, 0, false) == [CreatedLine(Items(2, 1)), Initialized]
  {
    assert TallyLines(2, 0, 1, 0, 0) == [CreatedLine(Items(2, 1))];
    assert StatusLine(3, 0, 0) == [Initialized];
  }

  lemma SecondSummary()
    ensures ShowSummary(0, 2, 0, 1, 0, false) == [SkippedLine(Items(2, 1)), AllExist]
  {
    assert TallyLines(0, 2, 0, 1, 0) == [SkippedLine(Items(2, 1))];
    assert StatusLine(0, 3, 0) == [AllExist];
  }

  /** A single error is counted in the singular. */
  lemma OneErrorText()
    ensures Render(ErrorTally(1)).1 == "Encountered 1 error during initialization"
  {
    assert NatToString(1) == "1";
    assert "Encountered " + "1" + " " + "error" + " during initialization"
        == "Encountered 1 error during initialization";
  }
}

=== FILE: template.dfy ===
/** TemplateManager (template.go): the view of the embedded tree below a fixed
    prefix directory that the engine walks and reads from. */
module Templates {
  import opened Common
  import opened Text
  import opened Assets

  /** Executable permissions (octal 0755) for scripts and directories. */
  const ModeExecutable: nat := 493
  /** Regular file permissions (octal 0644). */
  const ModeRegular: nat := 420

  datatype TemplateManager = TemplateManager(assets: seq<Asset>, prefix: string)

  /** What the callback of TemplateManager.Walk receives: an entry with its
      path relative to the prefix, or a walk error with the path as walked. */
  datatype Event = Entry(rel: string, entry: Asset) | WalkError(path: string, err: Error)

  /** The wrapping callback of TemplateManager.Walk applied to one callback
      invocation of fs.WalkDir. */
  function Relay(prefix: string, e: RawEvent): (r: seq<Event>)
    ensures e.Fault? ==> r == [WalkError(e.path, e.err)]
    ensures e.Visit? && e.path == prefix ==> r == []
    ensures e.Visit? && e.path != prefix ==>
              |r| == 1 && r[0].Entry? && r[0].entry == e.entry
              && (prefix + "/" <= e.path ==> prefix + "/" + r[0].rel == e.path)
              && (!(prefix + "/" <= e.path) ==> r[0].rel == e.path)
  {
    match e
    case Fault(q, err) => [WalkError(q, err)]
    case Visit(q, a) =>
      if q == prefix then []
      else [Entry(TrimPrefix(q, prefix + "/"), a)]
  }

  /** TemplateManager.Walk, one event at a time. */
  function RelayAll(prefix: string, raw: seq<RawEvent>): seq<Event> {
    if raw == [] then [] else Relay(prefix, raw[0]) + RelayAll(prefix, raw[1..])
  }

  /** The events the callback passed to TemplateManager.Walk receives, in
      order, when it never stops the walk. */
  function Walk(tm: TemplateManager): (r: seq<Event>)
    ensures FaultsFrom(r, WalkDir(tm.assets, tm.prefix))
    ensures AllRelayed(tm.prefix, WalkDir(tm.assets, tm.prefix), r)
  {
    var raw := WalkDir(tm.assets, tm.prefix);
    RelayKeepsFaults(tm.prefix, raw);
    RelayKeepsAll(tm.prefix, raw);
    RelayAll(tm.prefix, raw)
  }

  /** What the walk reports when the prefix is missing, a file, or an
      unreadable directory. */
  lemma WalkWithoutRootDir(tm: TemplateManager)
    ensures var root := Lookup(tm.assets, SplitPath(tm.prefix));
            var r := Walk(tm);
            && (root.None? ==> r == [WalkError(tm.prefix, NotExist(tm.prefix))])
            && (root.Some? && root.value.AFile? ==> r == [])
            && (root.Some? && root.value.AUnreadableDir? ==> r == [WalkError(tm.prefix, ListingFailed(tm.prefix))])
  {
    var p := tm.prefix;
    var root := Lookup(tm.assets, SplitPath(p));
    if root.None? {
      RelayOneEvent(p, Fault(p, NotExist(p)));
    } else if root.value.AFile? {
      assert WalkDir(tm.assets, p) == [Visit(p, root.value)];
      RelayOneEvent(p, Visit(p, root.value));
    } else if root.value.AUnreadableDir? {
      var raw := [Visit(p, root.value), Fault(p, ListingFailed(p))];
      assert WalkDir(tm.assets, p) == raw;
      assert raw[1..] == [Fault(p, ListingFailed(p))];
      RelayOneEvent(p, Fault(p, ListingFailed(p)));
    }
  }

  lemma RelayOneEvent(prefix: string, x: RawEvent)
    ensures RelayAll(prefix, [x]) == Relay(prefix, x)
  {
    assert [x][1..] == [];
  }

  /** Every walk error among `events` is a fault of `raw`, with its path as
      walked. */
  ghost predicate FaultsFrom(events: seq<Event>, raw: seq<RawEvent>) {
    forall k :: 0 <= k < |events| && events[k].WalkError? ==> Fault(events[k].path, events[k].err) in raw
  }

  /** Every walk error the callback receives is one fs.WalkDir reported. */
  lemma {:induction false} RelayKeepsFaults(prefix: string, raw: seq<RawEvent>)
    ensures FaultsFrom(RelayAll(prefix, raw), raw)
  {
    if raw != [] {
      var head, rest := Relay(prefix, raw[0]), RelayAll(prefix, raw[1..]);
      RelayKeepsFaults(prefix, raw[1..]);
      var r := head + rest;
      assert RelayAll(prefix, raw) == r;
      forall k | 0 <= k < |r| && r[k].WalkError?
        ensures Fault(r[k].path, r[k].err) in raw
      {
        if k < |head| {
          assert r[k] == head[k];
        } else {
          var j := k - |head|;
          assert r[k] == rest[j];
          var f := Fault(rest[j].path, rest[j].err);
          assert f in raw[1..];
          var i :| 0 <= i < |raw[1..]| && raw[1..][i] == f;
          assert raw[i + 1] == f;
        }
      }
    }
  }

  /** Every fault of `raw` reaches the callback as a walk error with its
      path as walked, and every visit other than the root reaches it as an
      entry with `prefix/` stripped. */
  ghost predicate AllRelayed(prefix: string, raw: seq<RawEvent>, events: seq<Event>) {
    && (forall k :: 0 <= k < |raw| && raw[k].Fault? ==> WalkError(raw[k].path, raw[k].err) in events)
    && (forall k :: 0 <= k < |raw| && raw[k].Visit? && raw[k].path != prefix ==>
          Entry(TrimPrefix(raw[k].path, prefix + "/"), raw[k].entry) in events)
  }

  /** Nothing fs.WalkDir reports is lost on the way to the callback, except
      the root itself. */
  lemma {:induction false} RelayKeepsAll(prefix: string, raw: seq<RawEvent>)
    ensures AllRelayed(prefix, raw, RelayAll(prefix, raw))
  {
    if raw != [] {
      var head, rest := Relay(prefix, raw[0]), RelayAll(prefix, raw[1..]);
      RelayKeepsAll(prefix, raw[1..]);
      var r := head + rest;
      assert RelayAll(prefix, raw) == r;
      forall k | 0 <= k < |raw| && raw[k].Fault?
        ensures WalkError(raw[k].path, raw[k].err) in r
      {
        if k == 0 {
          assert head[0] == r[0];
        } else {
          assert raw[k] == raw[1..][k - 1];
          var j :| 0 <= j < |rest| && rest[j] == WalkError(raw[k].path, raw[k].err);
          assert r[|head| + j] == rest[j];
        }
      }
      forall k | 0 <= k < |raw| && raw[k].Visit? && raw[k].path != prefix
        ensures Entry(TrimPrefix(raw[k].path, prefix + "/"), raw[k].entry) in r
      {
        if k == 0 {
          assert head[0] == r[0];
        } else {
          assert raw[k] == raw[1..][k - 1];
          var j :| 0 <= j < |rest| && rest[j] == Entry(TrimPrefix(raw[k].path, prefix + "/"), raw[k].entry);
          assert r[|head| + j] == rest[j];
        }
      }
    }
  }

  /** Every entry below the prefix reaches the callback, at its path
      relative to the prefix. */
  lemma WalkComplete(tm: TemplateManager, ns: seq<string>, b: Asset)
    requires |ns| >= 1
    requires Lookup(tm.assets, SplitPath(tm.prefix) + ns) == Some(b)
    ensures Entry(JoinWith(ns, "/"), b) in Walk(tm)
  {
    var p := tm.prefix;
    var raw := WalkDir(tm.assets, p);
    var q := p + "/" + JoinWith(ns, "/");
    WalkDirComplete(tm.assets, p, ns, b);
    var k :| 0 <= k < |raw| && raw[k] == Visit(q, b);
    assert |q| > |p|;
    TrimPrefixOfConcat(p + "/", JoinWith(ns, "/"));
    assert Entry(TrimPrefix(raw[k].path, p + "/"), raw[k].entry) in Walk(tm);
  }

  /** path.Join for two clean operands: an empty side gives the other, and
      two non-empty sides are glued with one slash. */
  function JoinSlash(a: string, b: string): (r: string)
    ensures a == "" ==> r == b
    ensures a != "" && b == "" ==> r == a
    ensures a != "" && b != "" ==> |r| == |a| + 1 + |b|
  {
    if a == "" then b else if b == "" then a else a + "/" + b
  }

  /** Joining two non-empty paths, the left side and the slash strip off
      again, and the segments are those of both sides. */
  lemma JoinSlashParts(a: string, b: string)
    requires a != "" && b != ""
    ensures TrimPrefix(JoinSlash(a, b), a + "/") == b
    ensures SplitPath(JoinSlash(a, b)) == SplitPath(a) + SplitPath(b)
  {
    TrimPrefixOfConcat(a + "/", b);
    SplitConcat(a, b);
  }

  /** TemplateManager.ReadFile: the bytes of the file at `prefix/rel`. */
  function ReadFile(tm: TemplateManager, rel: string): (r: Result<Bytes, Error>)
    ensures r.Success? <==>
              var found := Lookup(tm.assets, SplitPath(JoinSlash(tm.prefix, rel)));
              found.Some? && found.value.AFile?
    ensures r.Failure? ==> r.error == ReadFailed(JoinSlash(tm.prefix, rel))
    ensures r.Success? ==> r.value == Lookup(tm.assets, SplitPath(JoinSlash(tm.prefix, rel))).value.content
  {
    var full := JoinSlash(tm.prefix, rel);
    match Lookup(tm.assets, SplitPath(full))
    case Some(AFile(_, content)) => Success(content)
    case _ => Failure(ReadFailed(full))
  }

  /** TemplateManager.HasTemplates: the prefix directory lists at least one
      entry. */
  function HasTemplates(tm: TemplateManager): (r: bool)
    ensures r <==> && ReadDir(tm.assets, SplitPath(tm.prefix), tm.prefix).Success?
                   && |ReadDir(tm.assets, SplitPath(tm.prefix), tm.prefix).value| > 0
  {
    match ReadDir(tm.assets, SplitPath(tm.prefix), tm.prefix)
    case Success(entries) => |entries| > 0
    case Failure(_) => false
  }

  /** TemplateManager.GetDefaultFileMode. */
  function GetDefaultFileMode(rel: string): (mode: nat)
    ensures mode == ModeExecutable || mode == ModeRegular
    ensures mode == ModeExecutable <==> HasSuffix(rel, ".sh") || HasSuffix(rel, ".bash")
  {
    if HasSuffix(rel, ".sh") || HasSuffix(rel, ".bash") then ModeExecutable else ModeRegular
  }

  /** TemplateManager.GetDefaultDirMode. */
  function GetDefaultDirMode(): (mode: nat)
    ensures mode == ModeExecutable
  {
    ModeExecutable
  }

  /** Any name ending in ".sh" or ".bash" is deployed executable, anything
      ending in ".md" or ".json" is not. */
  lemma ScriptsAreExecutable(stem: string)
    ensures GetDefaultFileMode(stem + ".sh") == ModeExecutable
    ensures GetDefaultFileMode(stem + ".bash") == ModeExecutable
    ensures GetDefaultFileMode(stem + ".md") == ModeRegular
    ensures GetDefaultFileMode(stem + ".json") == ModeRegular
  {
    HasSuffixOfConcat(stem, ".sh");
    HasSuffixOfConcat(stem, ".bash");
    var md := stem + ".md";
    assert md[|md| - 1] == 'd';
    var js := stem + ".json";
    assert js[|js| - 1] == 'n';
  }

  /** The relative paths of the non-directory entries among `events`, in
      order. */
  function FilePaths(events: seq<Event>): seq<string> {
    if events == [] then []
    else
      var last := events[|events| - 1];
      FilePaths(events[..|events| - 1])
        + (if last.Entry? && !IsDir(last.entry) then [last.rel] else [])
  }

  predicate NoFaults(events: seq<Event>) {
    forall k :: 0 <= k < |events| ==> !events[k].WalkError?
  }

  /** The callback of TemplateManager.ListTemplates run over `events`:
      collect the paths of non-directory entries, stop at the first error. */
  method CollectFiles(events: seq<Event>) returns (r: Result<seq<string>, Error>)
    ensures r.Success? <==> NoFaults(events)
    ensures r.Success? ==> r.value == FilePaths(events)
    ensures r.Failure? ==>
              exists k :: 0 <= k < |events| && events[k].WalkError?
                && NoFaults(events[..k]) && r.error == events[k].err
  {
    var templates: seq<string> := [];
    var i := 0;
    while i < |events|
      invariant 0 <= i <= |events|
      invariant NoFaults(events[..i])
      invariant templates == FilePaths(events[..i])
    {
      var e := events[i];
      assert events[..i + 1][..i] == events[..i];
      if e.WalkError? {
        return Failure(e.err);
      }
      if !IsDir(e.entry) {
        templates := templates + [e.rel];
      }
      i := i + 1;
    }
    assert events[..i] == events;
    return Success(templates);
  }

  /** TemplateManager.ListTemplates: the relative paths of all files in walk
      order, or the first walk error, wrapped. */
  method ListTemplates(tm: TemplateManager) returns (r: Result<seq<string>, Error>)
    ensures r.Success? <==> NoFaults(Walk(tm))
    ensures r.Success? ==> r.value == FilePaths(Walk(tm))
    ensures r.Failure? ==>
              exists k :: 0 <= k < |Walk(tm)| && Walk(tm)[k].WalkError?
                && NoFaults(Walk(tm)[..k]) && r.error == ListFailed(Walk(tm)[k].err)
  {
    var events := Walk(tm);
    var collected := CollectFiles(events);
    match collected
    case Success(paths) => return Success(paths);
    case Failure(err) => return Failure(ListFailed(err));
  }

  lemma {:induction false} RelayAllConcat(prefix: string, a: seq<RawEvent>, b: seq<RawEvent>)
    ensures RelayAll(prefix, a + b) == RelayAll(prefix, a) + RelayAll(prefix, b)
  {
    if a != [] {
      assert (a + b)[0] == a[0];
      assert (a + b)[1..] == a[1..] + b;
      RelayAllConcat(prefix, a[1..], b);
      calc {
        RelayAll(prefix, a + b);
        Relay(prefix, a[0]) + RelayAll(prefix, a[1..] + b);
        Relay(prefix, a[0]) + (RelayAll(prefix, a[1..]) + RelayAll(prefix, b));
        (Relay(prefix, a[0]) + RelayAll(prefix, a[1..])) + RelayAll(prefix, b);
      }
    } else {
      assert a + b == b;
    }
  }

  /** The directory the prefix names, when the walk can start from one. */
  ghost predicate RootIsDir(tm: TemplateManager) {
    var root := Lookup(tm.assets, SplitPath(tm.prefix));
    root.Some? && root.value.ADir?
  }

  /** HasTemplates holds exactly when the walk reports at least one entry:
      the check before a run is the same as "the run has work to do". */
  lemma HasTemplatesIffEntries(tm: TemplateManager)
    ensures HasTemplates(tm) <==> exists k :: 0 <= k < |Walk(tm)| && Walk(tm)[k].Entry?
  {
    if RootIsDir(tm) {
      var p := tm.prefix;
      var kids := Lookup(tm.assets, SplitPath(p)).value.children;
      WalkOfRoot(tm);
      if |kids| > 0 {
        var first := kids[0];
        var here := p + "/" + first.name;
        ForestStart(kids, p);
        assert |here| > |p|;
        RelayHeadEntry(p, WalkForest(kids, p));
        assert Walk(tm)[0].Entry?;
      } else {
        assert WalkForest(kids, p) == [];
      }
    } else {
      NoEntriesWithoutRootDir(tm);
    }
  }

  /** From a prefix directory, the walk reports what lies below it. */
  lemma WalkOfRoot(tm: TemplateManager)
    requires RootIsDir(tm)
    ensures Walk(tm) == RelayAll(tm.prefix, WalkForest(Lookup(tm.assets, SplitPath(tm.prefix)).value.children, tm.prefix))
  {
    var p := tm.prefix;
    var root := Lookup(tm.assets, SplitPath(p)).value;
    var below := WalkForest(root.children, p);
    assert WalkDir(tm.assets, p) == WalkFrom(root, p);
    assert WalkFrom(root, p) == [Visit(p, root)] + below;
    RelayAllConcat(p, [Visit(p, root)], below);
    assert RelayAll(p, [Visit(p, root)]) == [];
  }

  /** The walk over a non-empty listing starts at its first child. */
  lemma ForestStart(kids: seq<Asset>, p: string)
    requires |kids| > 0
    ensures |WalkForest(kids, p)| > 0
    ensures WalkForest(kids, p)[0] == Visit(p + "/" + kids[0].name, kids[0])
  {
    var here := p + "/" + kids[0].name;
    assert WalkForest(kids, p) == WalkFrom(kids[0], here) + WalkForest(kids[1..], p);
  }

  /** A visit to anything but the root leads the relayed walk as an entry. */
  lemma RelayHeadEntry(p: string, raw: seq<RawEvent>)
    requires |raw| > 0 && raw[0].Visit? && raw[0].path != p
    ensures |RelayAll(p, raw)| > 0 && RelayAll(p, raw)[0].Entry?
  {
    assert RelayAll(p, raw) == Relay(p, raw[0]) + RelayAll(p, raw[1..]);
  }

  /** What the walk promises about each entry it reports: its relative path
      names, segment by segment, an entry strictly inside the prefix
      directory, and reading a reported file gives back exactly that file's
      bytes. */
  ghost predicate ReportedFaithfully(tm: TemplateManager, e: Event)
    requires e.Entry?
  {
    var ns := SplitPath(e.rel);
    && RootIsDir(tm)
    && e.rel != ""
    && (forall k :: 0 <= k < |ns| ==> ValidName(ns[k]))
    && Lookup(tm.assets, SplitPath(tm.prefix) + ns) == Some(e.entry)
    && (e.entry.AFile? ==> ReadFile(tm, e.rel) == Success(e.entry.content))
  }

  /** Every entry the walk of a well-formed tree reports is reported
      faithfully; in particular the walk never reports the prefix directory
      itself, and ReadFile round-trips every file it reports. */
  lemma {:induction false} WalkReportsFaithfully(tm: TemplateManager)
    requires WellFormed(tm.assets)
    ensures forall k :: 0 <= k < |Walk(tm)| && Walk(tm)[k].Entry? ==> ReportedFaithfully(tm, Walk(tm)[k])
  {
    var p := tm.prefix;
    var found := Lookup(tm.assets, SplitPath(p));
    var w := Walk(tm);
    if found.Some? && found.value.ADir? {
      var root := found.value;
      var kids := root.children;
      var below := WalkForest(kids, p);
      assert WalkDir(tm.assets, p) == [Visit(p, root)] + below;
      RelayAllConcat(p, [Visit(p, root)], below);
      assert w == RelayAll(p, below);
      LookupNames(tm.assets, SplitPath(p));
      RootChildrenWellFormed(tm.assets, SplitPath(p));
      WalkForestLocated(kids, p);
      RelayAllLocated(tm, kids, below);
    } else {
      NoEntriesWithoutRootDir(tm);
    }
  }

  /** Without a prefix directory to walk, the walk reports no entry. */
  lemma NoEntriesWithoutRootDir(tm: TemplateManager)
    requires !RootIsDir(tm)
    ensures forall k :: 0 <= k < |Walk(tm)| ==> !Walk(tm)[k].Entry?
  {
    var p := tm.prefix;
    var found := Lookup(tm.assets, SplitPath(p));
    var raw := WalkDir(tm.assets, p);
    if found.Some? && found.value.AFile? {
      assert raw == [Visit(p, found.value)];
      assert Walk(tm) == Relay(p, raw[0]) + RelayAll(p, raw[1..]);
    } else if found.Some? {
      assert raw == [Visit(p, found.value), RawEvent.Fault(p, ListingFailed(p))];
      assert raw[1..] == [RawEvent.Fault(p, ListingFailed(p))];
      assert Walk(tm) == Relay(p, raw[0]) + RelayAll(p, raw[1..]);
      assert Walk(tm) == [WalkError(p, ListingFailed(p))];
    } else {
      assert raw == [RawEvent.Fault(p, NotExist(p))];
      assert Walk(tm) == Relay(p, raw[0]) + RelayAll(p, raw[1..]);
    }
  }

  /** The directory a path leads to in a well-formed tree is well-formed. */
  lemma {:induction false} RootChildrenWellFormed(cs: seq<Asset>, ns: seq<string>)
    requires WellFormed(cs)
    requires Lookup(cs, ns).Some? && Lookup(cs, ns).value.ADir?
    ensures WellFormed(Lookup(cs, ns).value.children)
    decreases ns
  {
    var a := Find(cs, ns[0]).value;
    var i :| 0 <= i < |cs| && cs[i] == a;
    if |ns| > 1 {
      RootChildrenWellFormed(a.children, ns[1..]);
    }
  }

  /** Relaying raw visits located below the prefix directory yields entries
      reported faithfully. */
  lemma {:induction false} RelayAllLocated(tm: TemplateManager, kids: seq<Asset>, raw: seq<RawEvent>)
    requires WellFormed(tm.assets) && WellFormed(kids)
    requires RootIsDir(tm) && Lookup(tm.assets, SplitPath(tm.prefix)).value.children == kids
    requires forall k :: 0 <= k < |raw| && raw[k].Visit? ==> LocatedIn(kids, tm.prefix, raw[k].path, raw[k].entry)
    ensures forall k :: 0 <= k < |RelayAll(tm.prefix, raw)| && RelayAll(tm.prefix, raw)[k].Entry? ==>
              ReportedFaithfully(tm, RelayAll(tm.prefix, raw)[k])
    decreases |raw|
  {
    var p := tm.prefix;
    if raw != [] {
      var head := Relay(p, raw[0]);
      var rest := RelayAll(p, raw[1..]);
      RelayAllLocated(tm, kids, raw[1..]);
      if raw[0].Visit? {
        var q := raw[0].path;
        assert LocatedIn(kids, p, q, raw[0].entry);
        EntryReportedFaithfully(tm, kids, q, raw[0].entry);
      }
      var all := RelayAll(p, raw);
      assert all == head + rest;
      forall k | 0 <= k < |all| && all[k].Entry?
        ensures ReportedFaithfully(tm, all[k])
      {
        if k >= |head| {
          assert all[k] == rest[k - |head|];
        }
      }
    }
  }

  /** One visit located below the prefix directory is relayed as an entry
      reported faithfully. */
  lemma EntryReportedFaithfully(tm: TemplateManager, kids: seq<Asset>, q: string, b: Asset)
    requires WellFormed(tm.assets) && WellFormed(kids)
    requires RootIsDir(tm) && Lookup(tm.assets, SplitPath(tm.prefix)).value.children == kids
    requires LocatedIn(kids, tm.prefix, q, b)
    ensures q != tm.prefix
    ensures ReportedFaithfully(tm, Relay(tm.prefix, Visit(q, b))[0])
  {
    var p := tm.prefix;
    var rel := q[|p| + 1..];
    assert q == p + "/" + rel;
    var e := Relay(p, Visit(q, b))[0];
    assert e.rel == rel;
    var ns := SplitPath(rel);
    LookupNames(kids, ns);
    assert rel != "";
    LookupAppend(tm.assets, SplitPath(p), ns);
    LookupNames(tm.assets, SplitPath(p));
    assert p != "";
    SplitConcat(p, rel);
    assert JoinSlash(p, rel) == q;
  }
}

=== FILE: text.dfy ===
/** The string operations the core borrows from Go's standard library:
    strings.TrimPrefix, strings.HasSuffix, strings.Join, splitting a
    slash-separated path into its segments, and the `%d` rendering of a count. */
module Text {

  /** strings.TrimPrefix: `s` without a leading `prefix`, or `s` unchanged
      when it does not start with `prefix`. */
  function TrimPrefix(s: string, prefix: string): (r: string)
    ensures prefix <= s ==> prefix + r == s
    ensures !(prefix <= s) ==> r == s
  {
    if prefix <= s then s[|prefix|..] else s
  }

  /** Stripping a prefix that was just prepended gives back the original. */
  lemma TrimPrefixOfConcat(prefix: string, x: string)
    ensures TrimPrefix(prefix + x, prefix) == x
  {
    assert prefix <= prefix + x;
    assert (prefix + x)[|prefix|..] == x;
  }

  /** strings.HasSuffix. */
  predicate HasSuffix(s: string, suffix: string) {
    |suffix| <= |s| && s[|s| - |suffix|..] == suffix
  }

  /** Whatever comes before it, a string ends with its own last part. */
  lemma HasSuffixOfConcat(x: string, suffix: string)
    ensures HasSuffix(x + suffix, suffix)
  {
    assert (x + suffix)[|x + suffix| - |suffix|..] == suffix;
  }

  /** The slash-separated segments of `s`: the path elements that
      filepath.Join receives after filepath.FromSlash, when it builds a
      target below the target directory. Every string has at least one
      segment, so the empty string has one empty segment. */
  function SplitPath(s: string): (r: seq<string>)
    ensures |r| >= 1
    ensures forall k :: 0 <= k < |r| ==> '/' !in r[k]
  {
    if s == [] then [""]
    else
      var rest := SplitPath(s[1..]);
      if s[0] == '/' then [""] + rest
      else [[s[0]] + rest[0]] + rest[1..]
  }

  /** strings.Join. */
  function JoinWith(items: seq<string>, sep: string): string {
    if |items| == 0 then ""
    else if |items| == 1 then items[0]
    else items[0] + sep + JoinWith(items[1..], sep)
  }

  /** Joining the segments of a path with "/" rebuilds the path. */
  lemma {:induction false} JoinSplit(s: string)
    ensures JoinWith(SplitPath(s), "/") == s
  {
    if s != [] {
      var rest := SplitPath(s[1..]);
      JoinSplit(s[1..]);
      if s[0] == '/' {
        assert ([""] + rest)[1..] == rest;
      } else {
        var head := [s[0]] + rest[0];
        if |rest| == 1 {
          assert JoinWith(rest, "/") == rest[0];
        } else {
          assert ([head] + rest[1..])[1..] == rest[1..];
          assert JoinWith(rest, "/") == rest[0] + "/" + JoinWith(rest[1..], "/");
        }
        assert [s[0]] + s[1..] == s;
      }
    }
  }

  /** A path glued from two halves with a slash splits into the segments of
      each half. */
  lemma {:induction false} SplitConcat(a: string, b: string)
    ensures SplitPath(a + "/" + b) == SplitPath(a) + SplitPath(b)
  {
    if a == [] {
      assert a + "/" + b == ['/'] + b;
      SplitCons('/', b);
    } else {
      var t := a[1..] + "/" + b;
      SplitConcat(a[1..], b);
      SplitConsStep(a[0], a[1..], t, SplitPath(b));
      assert a + "/" + b == [a[0]] + t;
      assert a == [a[0]] + a[1..];
    }
  }

  /** The inductive step of SplitConcat: a string that splits into the
      segments of `a` followed by `right` still does so with one more leading
      character on both. */
  lemma SplitConsStep(c: char, a: string, t: string, right: seq<string>)
    requires SplitPath(t) == SplitPath(a) + right
    ensures SplitPath([c] + t) == SplitPath([c] + a) + right
  {
    SplitCons(c, t);
    SplitCons(c, a);
    ConsSegmentConcat(c, SplitPath(a), right);
  }

  /** The segments of `[c] + t`, given the segments of `t`. */
  function ConsSegment(c: char, segs: seq<string>): seq<string>
    requires |segs| >= 1
  {
    if c == '/' then [""] + segs else [[c] + segs[0]] + segs[1..]
  }

  /** Splitting a string one character longer than `t`. */
  lemma SplitCons(c: char, t: string)
    ensures SplitPath([c] + t) == ConsSegment(c, SplitPath(t))
  {
    assert ([c] + t)[0] == c && ([c] + t)[1..] == t;
  }

  /** Adding a character touches only the first segment. */
  lemma ConsSegmentConcat(c: char, left: seq<string>, right: seq<string>)
    requires |left| >= 1
    ensures ConsSegment(c, left + right) == ConsSegment(c, left) + right
  {
    if c == '/' {
      assert [""] + (left + right) == ([""] + left) + right;
    } else {
      var head := [c] + left[0];
      ConcatHeadTail(left, right);
      assert [head] + (left[1..] + right) == ([head] + left[1..]) + right;
    }
  }

  lemma ConcatHeadTail<T>(left: seq<T>, right: seq<T>)
    requires |left| >= 1
    ensures (left + right)[0] == left[0]
    ensures (left + right)[1..] == left[1..] + right
  {
  }

  /** A string without slashes is a single segment. */
  lemma {:induction false} SplitPlain(x: string)
    requires '/' !in x
    ensures SplitPath(x) == [x]
  {
    if x != [] {
      SplitPlain(x[1..]);
      assert [x[0]] + x[1..] == x;
    }
  }

  /** Segments without slashes, joined with "/", split back into themselves. */
  lemma {:induction false} SplitJoin(items: seq<string>)
    requires |items| >= 1
    requires forall k :: 0 <= k < |items| ==> '/' !in items[k]
    ensures SplitPath(JoinWith(items, "/")) == items
    decreases |items|
  {
    SplitPlain(items[0]);
    if |items| > 1 {
      var rest := items[1..];
      assert forall k :: 0 <= k < |rest| ==> rest[k] == items[k + 1];
      SplitJoin(rest);
      assert JoinWith(items, "/") == items[0] + "/" + JoinWith(rest, "/");
      SplitConcat(items[0], JoinWith(rest, "/"));
      assert [items[0]] + rest == items;
    }
  }

  /** The decimal digit character for `d`. */
  function DigitChar(d: nat): char
    requires d < 10
  {
    ('0' as int + d) as char
  }

  predicate IsDigit(c: char) {
    '0' as int <= c as int <= '9' as int
  }

  /** The `%d` rendering of a non-negative count. */
  function NatToString(n: nat): (s: string)
    ensures |s| >= 1
    ensures forall k :: 0 <= k < |s| ==> IsDigit(s[k])
    ensures s[0] == '0' ==> n == 0
  {
    if n < 10 then [DigitChar(n)]
    else NatToString(n / 10) + [DigitChar(n % 10)]
  }

  /** Reads a string of decimal digits back as a number. */
  function ParseDecimal(s: string): nat
    requires forall k :: 0 <= k < |s| ==> IsDigit(s[k])
  {
    if s == [] then 0
    else ParseDecimal(s[..|s| - 1]) * 10 + DigitValue(s[|s| - 1])
  }

  /** The number a decimal digit character stands for. */
  function DigitValue(c: char): (d: nat)
    requires IsDigit(c)
    ensures d < 10
  {
    c as int - '0' as int
  }

  /** The rendering of a count reads back as that count. */
  lemma {:induction false} ParseFormat(n: nat)
    ensures ParseDecimal(NatToString(n)) == n
  {
    if n >= 10 {
      var s := NatToString(n);
      assert s[..|s| - 1] == NatToString(n / 10);
      ParseFormat(n / 10);
    }
  }
}
